=== FILE: README.md ===
# Router radio controller, modelled in Dafny

A model of the decision logic of a script that turns the 2.4GHz radio of a
Netgear router on and off through the router's web administration pages. It
also reads the radio's state. The browser is abstracted away. Each step's
observations (an element found, a click that raises, the URL after login,
the CSS class of the status icon) are fields of an oracle record. Each
step's actions (driver created, button clicked, frame entered, checkbox
activated, Apply clicked, notification sent) are appended to an effect
trace. The properties are statements about the results and the traces.

Modules, one per source file plus three helpers:

- `Models` (models.py): the `RadioStatus` and `ActionResult` enumerations, and `RouterConfig`. It covers the defaults, `from_yaml` at the level of the parsed YAML value (with its key filter and fallbacks) and the dictionary `to_yaml` writes.
- `Utils` (utils.py): the `retry` decorator. The decorated operation becomes the sequence of outcomes of its successive calls. A run records the outcome handed back, the number of calls and every sleep length.
- `Network` (network.py): the string logic of the network check. Each command becomes its captured exit code and standard output, or the fact that starting it raised.
- `RouterController` (router_controller.py):
  - the SSL handler, login, navigation, status reading and toggle steps;
  - the three public operations;
  - a controller serving several requests in turn.
- `Trace`: the effect datatype and counting over traces.
- `Search`: ordered first-success search, the shape of the selector fallback loops that stop at the first success (the iframe scans, the checkbox and Apply lookups). The login's takeover loop does not stop at the first click that works and is modelled separately (`RouterController.TakeoverClicks`).
- `Text`: the Python string operations the source relies on (`in` on strings, `lower`, `strip`, `split`, `startswith`).
- `Wrappers`: `Option`.

Three facts about the code that the model makes explicit:

- Configuration values are copied without any type or range check, so `timeout: -1` loads as -1 (`Models.NegativeTimeoutKept`).
- Neither enumeration has a VPN member (`Models.RadioStatusMembers`, `Models.ActionResultMembers`). No operation consults the VPN check, which exists only as a stand-alone function (`Network.IsVpnConnected`).
- The retry decorator retries on every `Exception`. The login it wraps catches every exception itself and never raises, so the wrapper always makes exactly one call (`RouterController.LoginWithRetry`).

## Model

| member | source | states |
|---|---|---|
| Models.ParseRadioStatus | models.py:11-15 | Looking up an enumeration value finds the member with exactly that value string, and nothing when no member has it |
| Models.ParseActionResult | models.py:18-23 | The same for `ActionResult` |
| Models.RadioStatusMembers | models.py:11-15 | `RadioStatus` has exactly four members, no VPN member, and each member's value string is its name, so lookup inverts `Value` |
| Models.ActionResultMembers | models.py:18-23 | `ActionResult` has exactly five members, with the same value/name round trip |
| Models.Value.Truthy | models.py:52 | Python truthiness: the falsy values are exactly null, false, the zeros and the empty string, list and mapping |
| Models.FieldOf | models.py:29-38 | A key names a field exactly when it is one of the ten field names, and then it names the field with that key |
| Models.FieldsAreKeys | models.py:29-38 | The ten field names are exactly the keys of the fields, one concept stated twice and shown to agree |
| Models.Construct | models.py:26-38 | The constructor gives each field its keyword argument when one is passed and its declared default otherwise |
| Models.KnownEntries | models.py:53 | The key filter keeps exactly the entries whose key `hasattr` finds on the class, with their values unchanged |
| Models.LoadMapping | models.py:53-58 | A surviving key that is not a field makes the constructor raise and gives the defaults; otherwise every field takes the document's value when present and the default when absent |
| Models.FromYaml | models.py:41-58 | A missing or unreadable file gives the defaults; a falsy document counts as an empty mapping; a truthy document that is not a mapping gives the defaults; a mapping goes through the key filter and constructor |
| Models.ToYaml | models.py:60-78 | The saved dictionary has exactly the ten field keys, each mapped to that field's current value |
| Models.ToYamlFromYamlRoundTrip | models.py:41-78 | Loading the dictionary `to_yaml` writes reconstructs the same configuration |
| Models.MissingFileGivesDefaults | models.py:29-47 | A missing file gives timeout 10, three retry attempts with delay 2, every flag off, and the fixed network, URLs and service name |
| Models.EmptyDocumentGivesDefaults | models.py:52 | A null document and an empty mapping both give the defaults |
| Models.UnknownKeyIgnored | models.py:53 | Adding a key that `hasattr` does not find on the class changes nothing in the loaded configuration |
| Models.SingleFieldLoads | models.py:53-58 | A document that sets one field loads with that value for the field and the default for every other field |
| Models.NegativeTimeoutKept | models.py:53 | Field values are kept without a type or range check: `timeout: -1` stays -1 and a string timeout stays a string |
| Models.UnknownSpecialNameDropped | models.py:53 | A key shaped like a special name that the class does not have, such as `__foo__`, is dropped and the document's timeout still loads |
| Models.MethodNameKeyGivesDefaults | models.py:53-58 | A `to_yaml` key passes the filter, the constructor rejects it, and the whole load falls back to the defaults, whatever else the document says |
| Utils.RetryFrom | utils.py:29-43 | From a given attempt on, with `current_delay` equal to `delay` multiplied by `backoff` once per earlier failure: the calls stay within `tries` and every call before the last raised. A returned value is the last call's. The operation's own exception propagates only after all tries. Between tries the handler raises IndexError when there is no positional argument and ValueError for a negative sleep length; it cannot fail otherwise. There is one sleep, never negative, per failed non-final call, and the sleeps grow by `backoff` each time |
| Utils.Retry | utils.py:14-47 | The operation is called at most `tries` times (once when `tries <= 0`, with nothing caught). The first returning call's value is passed through unchanged. The operation's exception propagates only after the last try; before it, the handler's own IndexError (no positional argument, then no sleep at all) or ValueError (negative sleep length) ends the run. The number of sleeps is the number of calls minus one |
| Utils.DelayClosedForm | utils.py:27-42 | Multiplying the delay by `backoff` after each sleep makes sleep number `n + 1` last `delay * backoff^n` |
| Utils.RetryClosedForm | utils.py:29-43 | When the handler cannot fail, a run with `k` raising calls before the first return returns that call's value after exactly `k` sleeps; if every one of the `tries` calls raises, the last exception propagates after `tries - 1` sleeps |
| Utils.SleepsGeometric | utils.py:27-42 | Every sleep of a run lasts `delay * backoff^i` for its position `i` |
| Utils.DefaultParamsAllFail | utils.py:14-43 | With the default parameters, three raising calls sleep 2 and then 3 seconds and re-raise the third call's exception |
| Utils.HandlerFailsAfterFirstError | utils.py:33-41 | When the first call raises with tries left, no positional argument gives IndexError and a negative delay gives ValueError, after one call and no sleep; the exception raised is the handler's, not the operation's |
| Utils.NegativeBackoffFailsSecondSleep | utils.py:41-42 | A negative `backoff` makes the second sleep length negative, so two failures end in ValueError after one sleep |
| Utils.FirstCallReturns | utils.py:29-31 | An operation whose first call returns is called once and never slept on |
| Utils.FirstReturn | utils.py:29-31 | The position of the first returning call among the first `n`: every call before it raised, and it returned unless no call did |
| Search.FirstIndex | router_controller.py:377-382 | An ordered fallback loop stops at the first candidate that succeeds: every earlier candidate failed, and it finds nothing only when every candidate fails |
| Search.FirstWhere | router_controller.py:393-409 | The candidate the fallback loop settles on, which exists exactly when some candidate succeeds |
| Search.FirstIndexIgnoresLater | router_controller.py:444-451 | Candidates after the first success are never consulted: appending more cannot change the choice |
| Text.ToLower | router_controller.py:128 | Lower-casing keeps the length, maps each character through the ASCII lower-case mapping and leaves no upper-case ASCII letter |
| Text.Strip | network.py:50 | Stripping removes exactly the leading and trailing whitespace and keeps the middle as a slice of the input |
| Text.Split | network.py:66 | Splitting on a separator gives at least one part and no part contains the separator |
| Text.JoinSplit | network.py:66 | Joining the parts of a split with the separator gives back the original text |
| Network.IsVpnConnected | network.py:17-36 | Connected only on a zero exit, and then exactly when the output contains "Connected"; a raising command is never connected |
| Network.VpnExamples | network.py:24-36 | "Connected" anywhere in zero-exit output is detected; the same output with a non-zero exit is not |
| Network.WifiMatch | network.py:42-55 | Tries en0 then en1. It matches exactly when one of them exits zero with the target inside its stripped output, and it picks en0 when both do |
| Network.HeaderName | network.py:69 | The interface name of a header line is the prefix of the line before its first ':', or the whole line when it has none |
| Network.NamesOf | network.py:65-71 | A name is extracted exactly when some non-empty line not starting with a tab or space has it before its first ':', and it starts with "en" |
| Network.NamesOfAppend | network.py:66-71 | Extraction preserves line order: the names of two blocks of lines are the first block's names followed by the second's |
| Network.InterfaceNames | network.py:65-71 | A name is listed exactly when some line of the output is an `en` header line with that name; each starts with "en" and contains no ':' and no line break |
| Network.FindLanAddressLine | network.py:87-91 | The line scan finds a line with "inet " and without "127.0.0.1" exactly when the output has one, and the line it reports is such a line |
| Network.WiredMatch | network.py:75-93 | The wired loop succeeds exactly when some listed interface exits zero, looks active and has a non-loopback address line |
| Network.LoopbackOnlyIsNotWired | network.py:84-91 | Output whose only address lines are loopback never counts as wired, however active the link looks |
| Network.IsConnectedToTargetNetwork | network.py:38-100 | On the target network exactly when en0 or en1 shows the target, or the interface listing succeeds and some listed `en` interface is wired up |
| Network.ListingFailureMeansWifiOnly | network.py:59-62 | When the interface listing fails or raises, only the Wi-Fi check can succeed |
| RouterController.HandleSslWarning | router_controller.py:65-95 | The SSL handler reports success on every path; it clicks through only when the warning is shown, and reaches the proceed link only after the Advanced button |
| RouterController.FormStillShown | router_controller.py:169 | The form check's value: true only when both field lookups find something, false when the username lookup finds nothing or the username lookup finds something and the password lookup does not |
| RouterController.TakeoverClicks | router_controller.py:150-161 | The takeover loop clicks in list order, each candidate at most once. It clicks only working candidates it reaches, clicks every working candidate it reaches, reads the URL successfully only after its last click, and ends on a completing candidate whenever one exists |
| RouterController.TakeoverSelectorsDistinct | router_controller.py:139-148 | The eight takeover selectors are pairwise different |
| RouterController.LoopClickedUnique | router_controller.py:150-161 | Over a candidate list without repeats, such as the selector list, the characterisation of `TakeoverClicks` admits exactly one click list, the one the loop makes |
| RouterController.InOrderExamples | router_controller.py:150 | Clicks in list order pass the order check; clicks out of order, or one candidate clicked twice, fail it |
| RouterController.LoopClickedStep | router_controller.py:150-161 | One step of the takeover loop past a candidate that does not complete: a working candidate is clicked before the rest, a failing one is skipped |
| RouterController.FailedUrlReadsClickEveryCandidate | router_controller.py:150-161 | When every candidate clicks but every URL read after a click raises, the loop clicks all of them in turn |
| RouterController.FirstCompletingCandidateIsOnlyClick | router_controller.py:150-158 | When `#yes` clicks and the URL read after it returns, it is the only click |
| RouterController.AfterSubmit | router_controller.py:127-178 | After submitting, the login fails exactly when the URL read raises, the login-form check rejects it (form still shown, or a lookup raises) or the page source read raises. On the multi-login page its trace is one click entry per selector the takeover loop clicks, in the loop's order; elsewhere it records nothing |
| RouterController.Login | router_controller.py:97-185 | Login fails exactly when the form cannot be loaded, filled and submitted, or a later read rejects it as in `AfterSubmit`. A submitted login's trace is the page visit, the SSL handler's clicks, the submission and then the `AfterSubmit` trace, in that order. The takeover clicks happen only after a submission on the multi-login page. It never changes a setting |
| RouterController.TakeoverClicksFollowSubmit | router_controller.py:121-161 | In every login trace, each takeover click comes after the form's submission |
| RouterController.LoginIgnoresSsl | router_controller.py:102-107 | Since the SSL handler always reports success, no SSL page can change the login's verdict; its failure branch is dead |
| RouterController.MultiLoginAlwaysProceeds | router_controller.py:127-178 | On the multi-login page the outcome is decided by the page source read alone, whatever the takeover candidates do |
| RouterController.NavigateToAdvancedSettings | router_controller.py:187-248 | Navigation succeeds exactly when the admin page loads, Advanced Setup is clicked and the settings marker shows in some iframe or in the main page. Focus is left in the first iframe that has it |
| RouterController.Classify | router_controller.py:301-312 | "img_status_good" means on and is checked first; otherwise "img_status_error" or "img_status_warning" means off; anything else is an unexpected failure |
| RouterController.ClassifyExamples | router_controller.py:301-312 | The good, error and warning markers classify as on, off and off; an unknown marker is a failure |
| RouterController.ReadStatus | router_controller.py:250-329 | The status is the classification of the indicator's class when every lookup succeeds, and an unexpected failure otherwise; reading never changes a setting and never reports "not connected" |
| RouterController.FormFrame | router_controller.py:364-383 | Finding the form frame only moves the focus: into the frame named "formframe" when it is found, else into the first iframe whose name mentions "form" in any case, and nowhere exactly when no iframe name does |
| RouterController.ApproachCheckbox | router_controller.py:333-383 | Reaching the checkbox only switches frames and opens the wireless settings page |
| RouterController.ActivationOf | router_controller.py:425-433 | The label click is tried first; the script click is used exactly when the label click raises and the script click works; neither working means no activation |
| RouterController.ApplyButton | router_controller.py:437-451 | The Apply button is the first of the four selectors that finds one, in list order; there is none exactly when no selector finds one |
| RouterController.ContentFrame | router_controller.py:337-354 | Positioning at the settings container enters the second iframe exactly when the container is not in the current frame, and enters no other frame |
| RouterController.Activate | router_controller.py:421-468 | Once the checkbox shows the other state, success needs an activation and a clicked Apply button. The activation recorded is exactly the one asked for. A success activates once and applies once, activation first and the Apply click next, and notifies exactly when asked to |
| RouterController.Toggle | router_controller.py:331-481 | Already-on and already-off are reported exactly when the checkbox shows the target state, and then nothing is activated or applied. Success needs an activation plus the first Apply button found and clicked, and then exactly one activation and one Apply happen. A success activates through the label when the label click works and through the script otherwise, and the script is used only when the label click raised. Any other outcome, including an unreachable checkbox, is a failure |
| RouterController.MissingApplyLeavesCheckboxActivated | router_controller.py:421-453 | With no Apply button the toggle fails even though the checkbox was already activated |
| RouterController.ToggleConverges | router_controller.py:411-419 | Once the checkbox shows the requested state, as after a successful toggle, the same request reports that the radio is already in that state and changes nothing |
| RouterController.InitializeDriver | router_controller.py:60-63 | A driver is created only when the controller has none; one that exists is reused |
| RouterController.LoginWithRetry | router_controller.py:97-185 | The retry decorator around the login makes exactly one call and never sleeps, because the login never raises |
| RouterController.OpenSession | router_controller.py:489-500 | The shared steps (driver, login, navigation) succeed exactly when all three do; they create at most one driver and change no setting |
| RouterController.CheckRadioStatus | router_controller.py:483-503 | Off the target network it answers "not connected" with no driver and no browser step. Otherwise it never answers that: it gives the status read once the session opens, and an unexpected failure when it does not. It never changes a setting |
| RouterController.TurnRadio | router_controller.py:505-547 | Off the target network the answer is "not connected" and nothing happens; otherwise never that. A failed session is a failure with nothing changed, and an open session gives the toggle's answer. Only a success applies a change, exactly once, and only a success notifies, when the configuration asks it to |
| RouterController.TurnOnRadio | router_controller.py:505-525 | Turning on never reports "already off"; "already on" means the checkbox was selected and nothing changed |
| RouterController.TurnOffRadio | router_controller.py:527-547 | Turning off never reports "already on"; "already off" means the checkbox was clear and nothing changed |
| RouterController.Handle | router_controller.py:483-547 | Serving one request keeps the configuration, keeps an existing driver and creates at most one |
| RouterController.Serve | router_controller.py:60-63 | A controller serving any number of requests creates at most one driver over all of them, and none when it already has one |

## Left out

- Selenium itself: finding elements, waits and their timeouts, frame switching, clicks, script execution. Each observation a step depends on is an oracle field and each action a trace entry; a wait that times out is an element that is not found.
- `time.sleep`: only the retry decorator's sleep lengths are recorded. Wall-clock time is not modelled.
- Floating-point arithmetic: delays are exact reals, so the rounding of repeated multiplication by 1.5 is not modelled.
- `subprocess` calls in network.py: each command is its captured result.
- `send_notification` in utils.py and its `osascript` call: external I/O. The trace records only that a notification was requested.
- Utils.Retry: the warning's message (`str(e)`), a `logger` attribute whose lookup raises something other than AttributeError, and `time.sleep` raising OverflowError for a huge length are not modelled; the handler fails only for a missing positional argument or a negative length.
- credentials.py: the keychain lookup and the interactive prompt are one oracle flag, "credentials obtained without raising".
- webdriver_manager.py, logger.py, debug_admin_page.py, exceptions.py (declared, never raised), `__init__.py`, and `main()` with its argument parsing: process management, logging, a manual inspection script and the command-line front end.
- The debug-mode HTML dumps to `/tmp` and the debug tracebacks: diagnostic side channels. A dump write that raises before the status read would turn that read into an unexpected failure in debug mode; this is not modelled.
- RouterController.Login: in debug mode a page source read or dump write that raises on the multi-login page fails the login; the model takes debug mode as off there.
- YAML parsing and writing: the file is modelled as its parsed value (`Missing`, `Unreadable` or a document), and `to_yaml` as the dictionary it dumps. Its boolean "written" result is not modelled.
- `__init__`, `__enter__` and `__exit__` of the controller: construction and driver clean-up. `Serve` stands for one controller serving requests in turn.
- The words the login's closing scan looks for: both of its branches return true, so only whether every page source read the scan makes returns is modelled. The scan reads the page source once per word it tries, up to four times; a single flag stands for all of those reads.
- `BaseException` subclasses such as `KeyboardInterrupt`, which no `except Exception` catches: the model has no interrupts.
- Models.FromYaml: `Path.home()` and `config_path.exists()` run outside the `try` (models.py:43-47), so an error such as PermissionError while checking the path propagates out of `from_yaml`. The model starts from a file already classified as missing, unreadable or a document, and does not model that propagation.
- Models.ClassAttributes: the names `hasattr` finds on the config class are a parameter, required to hold the fields, both methods and `mro`; which other special names a dataclass carries depends on the Python version.
- Models.Value: YAML keys are strings; documents with non-string keys are not modelled.
- Text.ToLower: lower-cases ASCII letters only, because Python's full Unicode case mapping is not modelled. The strings compared (`multi_login`, `login`, `form`) are ASCII.
- RouterController.NavigateToAdvancedSettings: the trace records only the iframe the focus is left in, not the iframes entered and left again while searching.
- RouterController.FormFrame: iframe names are strings. An iframe whose `name` attribute is absent is not modelled.

=== FILE: models.dfy ===
/**
 The value types of the radio controller: the two closed result enumerations,
 the YAML values a configuration file can hold, and `RouterConfig` with its
 defaults, its load from a parsed YAML document and its save to a dictionary.
 The YAML text itself is not modelled: a file is either missing, unreadable
 (an I/O error, a parse error, or the YAML library missing) or a parsed
 document value.
 */
module Models {
  import opened Wrappers

  /** Outcome of a status query; each member's value string is its own name. */
  datatype RadioStatus = RadioOn | RadioOff | NotConnectedToRouter | UnexpectedFailure {

    function Value(): string
    {
      match this
      case RadioOn => "RADIO_ON"
      case RadioOff => "RADIO_OFF"
      case NotConnectedToRouter => "NOT_CONNECTED_TO_ROUTER"
      case UnexpectedFailure => "UNEXPECTED_FAILURE"
    }
  }

  /** Outcome of a switch-on or switch-off request; each member's value string is its own name. */
  datatype ActionResult = Success | AlreadyOn | AlreadyOff | NotConnected | Failure {

    function Value(): string
    {
      match this
      case Success => "SUCCESS"
      case AlreadyOn => "ALREADY_ON"
      case AlreadyOff => "ALREADY_OFF"
      case NotConnected => "NOT_CONNECTED_TO_ROUTER"
      case Failure => "UNEXPECTED_FAILURE"
    }
  }

  const AllRadioStatuses: set<RadioStatus> := {RadioOn, RadioOff, NotConnectedToRouter, UnexpectedFailure}
  const AllActionResults: set<ActionResult> := {Success, AlreadyOn, AlreadyOff, NotConnected, Failure}

  /** Enum lookup by value, `RadioStatus(v)`: finds the member whose value is `v`, if any. */
  function ParseRadioStatus(v: string): (r: Option<RadioStatus>)
    ensures r.Some? ==> r.value.Value() == v
    ensures r.None? ==> forall s: RadioStatus :: s.Value() != v
  {
    if v == "RADIO_ON" then Some(RadioOn)
    else if v == "RADIO_OFF" then Some(RadioOff)
    else if v == "NOT_CONNECTED_TO_ROUTER" then Some(NotConnectedToRouter)
    else if v == "UNEXPECTED_FAILURE" then Some(UnexpectedFailure)
    else None
  }

  /** Enum lookup by value, `ActionResult(v)`: finds the member whose value is `v`, if any. */
  function ParseActionResult(v: string): (r: Option<ActionResult>)
    ensures r.Some? ==> r.value.Value() == v
    ensures r.None? ==> forall a: ActionResult :: a.Value() != v
  {
    if v == "SUCCESS" then Some(Success)
    else if v == "ALREADY_ON" then Some(AlreadyOn)
    else if v == "ALREADY_OFF" then Some(AlreadyOff)
    else if v == "NOT_CONNECTED_TO_ROUTER" then Some(NotConnected)
    else if v == "UNEXPECTED_FAILURE" then Some(Failure)
    else None
  }

  /** `RadioStatus` has exactly four members, with distinct values that name them back. */
  lemma RadioStatusMembers()
    ensures |AllRadioStatuses| == 4
    ensures forall s: RadioStatus :: s in AllRadioStatuses && ParseRadioStatus(s.Value()) == Some(s)
  {
    assert RadioOn !in {RadioOff, NotConnectedToRouter, UnexpectedFailure};
    assert RadioOff !in {NotConnectedToRouter, UnexpectedFailure};
    forall s: RadioStatus
      ensures s in AllRadioStatuses && ParseRadioStatus(s.Value()) == Some(s)
    {
      match s
      case RadioOn =>
      case RadioOff =>
      case NotConnectedToRouter =>
      case UnexpectedFailure =>
    }
  }

  /** `ActionResult` has exactly five members, with distinct values that name them back. */
  lemma ActionResultMembers()
    ensures |AllActionResults| == 5
    ensures forall a: ActionResult :: a in AllActionResults && ParseActionResult(a.Value()) == Some(a)
  {
    assert Success !in {AlreadyOn, AlreadyOff, NotConnected, Failure};
    assert AlreadyOn !in {AlreadyOff, NotConnected, Failure};
    assert AlreadyOff !in {NotConnected, Failure};
    forall a: ActionResult
      ensures a in AllActionResults && ParseActionResult(a.Value()) == Some(a)
    {
      match a
      case Success =>
      case AlreadyOn =>
      case AlreadyOff =>
      case NotConnected =>
      case Failure =>
    }
  }

  /** A value of a parsed YAML document, with Python's truthiness. */
  datatype Value =
    | Null
    | Bool(b: bool)
    | Int(i: int)
    | Float(f: real)
    | Str(s: string)
    | List(items: seq<Value>)
    | Dict(entries: map<string, Value>)
  {
    /** Python's `bool(v)`: the falsy values are exactly null, false, the zeros and the empty string, list and mapping. */
    function Truthy(): (t: bool)
      ensures !t <==> this == Null || this == Bool(false) || this == Int(0) || this == Float(0.0)
                      || this == Str("") || this == List([]) || this == Dict(map[])
    {
      match this
      case Null => false
      case Bool(b) => b
      case Int(i) => i != 0
      case Float(f) => f != 0.0
      case Str(s) => |s| > 0
      case List(xs) => |xs| > 0
      case Dict(m) => |m| > 0
    }
  }

  /**
   The configuration record. Every field holds whatever value the file gave
   it: loading performs no type or range check.
   */
  datatype RouterConfig = RouterConfig(
    targetNetwork: Value,
    routerUrl: Value,
    adminUrl: Value,
    timeout: Value,
    serviceName: Value,
    headless: Value,
    retryAttempts: Value,
    retryDelay: Value,
    enableNotifications: Value,
    debugMode: Value)

  /** The ten fields of the configuration record. */
  datatype FieldName =
    | TargetNetwork | RouterUrl | AdminUrl | Timeout | ServiceName
    | Headless | RetryAttempts | RetryDelay | EnableNotifications | DebugMode
  {
    /** The attribute name, which is also the YAML key. */
    function Key(): string
    {
      match this
      case TargetNetwork => "target_network"
      case RouterUrl => "router_url"
      case AdminUrl => "admin_url"
      case Timeout => "timeout"
      case ServiceName => "service_name"
      case Headless => "headless"
      case RetryAttempts => "retry_attempts"
      case RetryDelay => "retry_delay"
      case EnableNotifications => "enable_notifications"
      case DebugMode => "debug_mode"
    }
  }

  const Fields: set<string> := {
    "target_network", "router_url", "admin_url", "timeout", "service_name",
    "headless", "retry_attempts", "retry_delay", "enable_notifications", "debug_mode"}

  /** The field a key names, if it names one. */
  function FieldOf(k: string): (r: Option<FieldName>)
    ensures r.Some? <==> k in Fields
    ensures r.Some? ==> r.value.Key() == k
  {
    if k == "target_network" then Some(TargetNetwork)
    else if k == "router_url" then Some(RouterUrl)
    else if k == "admin_url" then Some(AdminUrl)
    else if k == "timeout" then Some(Timeout)
    else if k == "service_name" then Some(ServiceName)
    else if k == "headless" then Some(Headless)
    else if k == "retry_attempts" then Some(RetryAttempts)
    else if k == "retry_delay" then Some(RetryDelay)
    else if k == "enable_notifications" then Some(EnableNotifications)
    else if k == "debug_mode" then Some(DebugMode)
    else None
  }

  /** Every field's key is one of `Fields`, and no two fields share a key. */
  lemma KeysAreFields(f: FieldName, g: FieldName)
    ensures f.Key() in Fields
    ensures f.Key() == g.Key() ==> f == g
  {
  }

  /** `Fields` is exactly the set of the field names' keys: `FieldOf` inverts `Key` on it. */
  lemma FieldsAreKeys()
    ensures forall k :: k in Fields <==> exists f: FieldName :: f.Key() == k
  {
    forall k
      ensures k in Fields <==> exists f: FieldName :: f.Key() == k
    {
      if k in Fields {
        var f := FieldOf(k).value;
        assert f.Key() == k;
      }
      if exists f: FieldName :: f.Key() == k {
        var f: FieldName :| f.Key() == k;
        KeysAreFields(f, f);
      }
    }
  }

  /**
   The names `hasattr` finds on the config class. Beyond the fields, the two
   methods and `mro` (inherited from `type`), which special `__x__` names a
   dataclass carries depends on the Python version, so the set is a
   parameter that must contain at least these.
   */
  predicate ClassAttributes(attrs: set<string>)
  {
    Fields <= attrs && "from_yaml" in attrs && "to_yaml" in attrs && "mro" in attrs
  }

  /** The value of one field. */
  function Field(c: RouterConfig, f: FieldName): Value
  {
    match f
    case TargetNetwork => c.targetNetwork
    case RouterUrl => c.routerUrl
    case AdminUrl => c.adminUrl
    case Timeout => c.timeout
    case ServiceName => c.serviceName
    case Headless => c.headless
    case RetryAttempts => c.retryAttempts
    case RetryDelay => c.retryDelay
    case EnableNotifications => c.enableNotifications
    case DebugMode => c.debugMode
  }

  /** Two configurations with the same value in every field are the same configuration. */
  lemma FieldsDetermineConfig(c: RouterConfig, d: RouterConfig)
    requires forall f: FieldName :: Field(c, f) == Field(d, f)
    ensures c == d
  {
    assert Field(c, TargetNetwork) == Field(d, TargetNetwork);
    assert Field(c, RouterUrl) == Field(d, RouterUrl);
    assert Field(c, AdminUrl) == Field(d, AdminUrl);
    assert Field(c, Timeout) == Field(d, Timeout);
    assert Field(c, ServiceName) == Field(d, ServiceName);
    assert Field(c, Headless) == Field(d, Headless);
    assert Field(c, RetryAttempts) == Field(d, RetryAttempts);
    assert Field(c, RetryDelay) == Field(d, RetryDelay);
    assert Field(c, EnableNotifications) == Field(d, EnableNotifications);
    assert Field(c, DebugMode) == Field(d, DebugMode);
  }

  /** The configuration `RouterConfig()` builds when given no arguments. */
  function Default(): RouterConfig
  {
    RouterConfig(
      targetNetwork := Str("1_lemonlemon_1"),
      routerUrl := Str("https://routerlogin.net/"),
      adminUrl := Str("https://routerlogin.net/adv_index.htm"),
      timeout := Int(10),
      serviceName := Str("router_admin"),
      headless := Bool(false),
      retryAttempts := Int(3),
      retryDelay := Int(2),
      enableNotifications := Bool(false),
      debugMode := Bool(false))
  }

  /** The keyword argument for field `f`, or the field's default when it is not given. */
  function Argument(kw: map<string, Value>, f: FieldName): Value
  {
    if f.Key() in kw then kw[f.Key()] else Field(Default(), f)
  }

  /** A record built from `Argument(kw, _)` field by field holds `Argument(kw, f)` in every field `f`. */
  lemma ConstructedFields(kw: map<string, Value>, c: RouterConfig)
    requires c.targetNetwork == Argument(kw, TargetNetwork) && c.routerUrl == Argument(kw, RouterUrl)
    requires c.adminUrl == Argument(kw, AdminUrl) && c.timeout == Argument(kw, Timeout)
    requires c.serviceName == Argument(kw, ServiceName) && c.headless == Argument(kw, Headless)
    requires c.retryAttempts == Argument(kw, RetryAttempts) && c.retryDelay == Argument(kw, RetryDelay)
    requires c.enableNotifications == Argument(kw, EnableNotifications) && c.debugMode == Argument(kw, DebugMode)
    ensures forall f: FieldName :: Field(c, f) == Argument(kw, f)
  {
    forall f: FieldName
      ensures Field(c, f) == Argument(kw, f)
    {
      match f
      case TargetNetwork =>
      case RouterUrl =>
      case AdminUrl =>
      case Timeout =>
      case ServiceName =>
      case Headless =>
      case RetryAttempts =>
      case RetryDelay =>
      case EnableNotifications =>
      case DebugMode =>
    }
  }

  /** `RouterConfig(**kw)` for keyword arguments that all name fields. */
  function Construct(kw: map<string, Value>): (c: RouterConfig)
    requires kw.Keys <= Fields
    ensures forall f: FieldName :: Field(c, f) == (if f.Key() in kw then kw[f.Key()] else Field(Default(), f))
  {
    var c := RouterConfig(
      targetNetwork := Argument(kw, TargetNetwork),
      routerUrl := Argument(kw, RouterUrl),
      adminUrl := Argument(kw, AdminUrl),
      timeout := Argument(kw, Timeout),
      serviceName := Argument(kw, ServiceName),
      headless := Argument(kw, Headless),
      retryAttempts := Argument(kw, RetryAttempts),
      retryDelay := Argument(kw, RetryDelay),
      enableNotifications := Argument(kw, EnableNotifications),
      debugMode := Argument(kw, DebugMode));
    ConstructedFields(kw, c);
    c
  }

  /** What `from_yaml` finds at the configuration path. */
  datatype ConfigFile =
    | Missing
      /** Opening or reading failed, the YAML did not parse, or the YAML library is absent. */
    | Unreadable
    | Document(content: Value)

  /** The entries of `m` whose key `hasattr` finds on the class, that is, whose key is in `attrs`. */
  function KnownEntries(m: map<string, Value>, attrs: set<string>): (kw: map<string, Value>)
    ensures kw.Keys == m.Keys * attrs
    ensures forall k :: k in kw ==> kw[k] == m[k]
  {
    map k | k in m && k in attrs :: m[k]
  }

  /**
   Loading a parsed mapping: the entries whose key the class has are passed
   to the constructor as keyword arguments, and the constructor's TypeError
   is caught. The defaults when a surviving key is not a field, otherwise
   each field given in `m` and the default elsewhere.
   */
  function LoadMapping(m: map<string, Value>, attrs: set<string>): (c: RouterConfig)
    requires Fields <= attrs
    ensures (exists k :: k in m && k in attrs && k !in Fields) ==> c == Default()
    ensures (forall k :: k in m && k in attrs ==> k in Fields)
            ==> forall f: FieldName :: Field(c, f) == Argument(m, f)
  {
    var kw := KnownEntries(m, attrs);
    if kw.Keys <= Fields then
      var c := Construct(kw);
      assert forall f: FieldName :: Field(c, f) == Argument(m, f) by {
        forall f: FieldName
          ensures Field(c, f) == Argument(m, f)
        {
          KeysAreFields(f, f);
        }
      }
      c
    else Default()
  }

  /** An empty mapping constructs the defaults. */
  lemma LoadEmpty(attrs: set<string>)
    requires Fields <= attrs
    ensures LoadMapping(map[], attrs) == Default()
  {
    FieldsDetermineConfig(LoadMapping(map[], attrs), Default());
  }

  /**
   `RouterConfig.from_yaml` once the path is known to exist or not: load,
   filter keys, construct; a failure inside its `try` gives the defaults.
   */
  function FromYaml(file: ConfigFile, attrs: set<string>): (c: RouterConfig)
    requires Fields <= attrs
    ensures file.Missing? || file.Unreadable? ==> c == Default()
    ensures file.Document? && !file.content.Truthy() ==> c == Default()
    ensures file.Document? && file.content.Truthy() && !file.content.Dict? ==> c == Default()
    ensures file.Document? && file.content.Dict? ==> c == LoadMapping(file.content.entries, attrs)
  {
    match file
    case Missing => Default()
    case Unreadable => Default()
    case Document(v) =>
      // a falsy document is replaced by an empty mapping
      var data := if v.Truthy() then v else Dict(map[]);
      LoadEmpty(attrs);
      // a truthy value that is not a mapping has no items to iterate, and the load raises
      if !data.Dict? then Default() else LoadMapping(data.entries, attrs)
  }

  /** `to_yaml`'s dictionary: exactly the ten fields, each with its current value. */
  function ToYaml(c: RouterConfig): (d: map<string, Value>)
    ensures d.Keys == Fields
    ensures forall f: FieldName :: d[f.Key()] == Field(c, f)
  {
    map[
      "target_network" := c.targetNetwork,
      "router_url" := c.routerUrl,
      "admin_url" := c.adminUrl,
      "timeout" := c.timeout,
      "service_name" := c.serviceName,
      "headless" := c.headless,
      "retry_attempts" := c.retryAttempts,
      "retry_delay" := c.retryDelay,
      "enable_notifications" := c.enableNotifications,
      "debug_mode" := c.debugMode]
  }

  /** Saving a configuration and loading the saved dictionary gives the same configuration. */
  lemma ToYamlFromYamlRoundTrip(c: RouterConfig, attrs: set<string>)
    requires ClassAttributes(attrs)
    ensures FromYaml(Document(Dict(ToYaml(c))), attrs) == c
  {
    var d := ToYaml(c);
    assert "timeout" in d;
    var r := FromYaml(Document(Dict(d)), attrs);
    forall f: FieldName
      ensures Field(r, f) == Field(c, f)
    {
      KeysAreFields(f, f);
    }
    FieldsDetermineConfig(r, c);
  }

  /** A missing file gives the defaults: timeout 10, three attempts two seconds apart, every flag off. */
  lemma MissingFileGivesDefaults(attrs: set<string>)
    requires ClassAttributes(attrs)
    ensures FromYaml(Missing, attrs) == Default()
    ensures FromYaml(Missing, attrs).timeout == Int(10)
    ensures FromYaml(Missing, attrs).retryAttempts == Int(3) && FromYaml(Missing, attrs).retryDelay == Int(2)
    ensures FromYaml(Missing, attrs).headless == Bool(false)
    ensures FromYaml(Missing, attrs).enableNotifications == Bool(false)
    ensures FromYaml(Missing, attrs).debugMode == Bool(false)
    ensures FromYaml(Missing, attrs).targetNetwork == Str("1_lemonlemon_1")
    ensures FromYaml(Missing, attrs).routerUrl == Str("https://routerlogin.net/")
    ensures FromYaml(Missing, attrs).adminUrl == Str("https://routerlogin.net/adv_index.htm")
    ensures FromYaml(Missing, attrs).serviceName == Str("router_admin")
  {
  }

  /** An empty or null document counts as `{}`: every field keeps its default. */
  lemma EmptyDocumentGivesDefaults(attrs: set<string>)
    requires ClassAttributes(attrs)
    ensures FromYaml(Document(Null), attrs) == Default()
    ensures FromYaml(Document(Dict(map[])), attrs) == Default()
  {
  }

  /** A key that is not a class attribute is dropped: adding it changes nothing. */
  lemma UnknownKeyIgnored(m: map<string, Value>, k: string, v: Value, attrs: set<string>)
    requires ClassAttributes(attrs)
    requires k !in attrs
    ensures FromYaml(Document(Dict(m[k := v])), attrs) == FromYaml(Document(Dict(m)), attrs)
  {
    assert KnownEntries(m[k := v], attrs) == KnownEntries(m, attrs);
  }

  /** A document that sets one field loads with that field's value and every other field at its default. */
  lemma SingleFieldLoads(f: FieldName, v: Value, attrs: set<string>)
    requires ClassAttributes(attrs)
    ensures Field(FromYaml(Document(Dict(map[f.Key() := v])), attrs), f) == v
    ensures forall g: FieldName :: g != f ==> Field(FromYaml(Document(Dict(map[f.Key() := v])), attrs), g) == Field(Default(), g)
  {
    var m := map[f.Key() := v];
    assert m.Keys == {f.Key()};
    KeysAreFields(f, f);
    assert forall k :: k in m && k in attrs ==> k in Fields;
    forall g: FieldName | g != f
      ensures Argument(m, g) == Field(Default(), g)
    {
      KeysAreFields(f, g);
    }
  }

  /** Field values are kept without a type or range check: `timeout: -1` gives timeout -1. */
  lemma NegativeTimeoutKept(attrs: set<string>)
    requires ClassAttributes(attrs)
    ensures FromYaml(Document(Dict(map["timeout" := Int(-1)])), attrs).timeout == Int(-1)
    ensures FromYaml(Document(Dict(map["timeout" := Str("ten")])), attrs).timeout == Str("ten")
  {
    assert Timeout.Key() == "timeout";
    var negative := FromYaml(Document(Dict(map["timeout" := Int(-1)])), attrs);
    SingleFieldLoads(Timeout, Int(-1), attrs);
    assert negative.timeout == Field(negative, Timeout);
    var text := FromYaml(Document(Dict(map["timeout" := Str("ten")])), attrs);
    SingleFieldLoads(Timeout, Str("ten"), attrs);
    assert text.timeout == Field(text, Timeout);
  }

  /** An unknown key shaped like a special name is dropped, and the rest of the document still loads. */
  lemma UnknownSpecialNameDropped(attrs: set<string>)
    requires ClassAttributes(attrs) && "__foo__" !in attrs
    ensures FromYaml(Document(Dict(map["timeout" := Int(5), "__foo__" := Int(1)])), attrs).timeout == Int(5)
  {
    var m := map["timeout" := Int(5)];
    UnknownKeyIgnored(m, "__foo__", Int(1), attrs);
    SingleFieldLoads(Timeout, Int(5), attrs);
  }

  /** A key naming a method passes the filter, the constructor rejects it, and the defaults come back. */
  lemma MethodNameKeyGivesDefaults(m: map<string, Value>, v: Value, attrs: set<string>)
    requires ClassAttributes(attrs)
    ensures FromYaml(Document(Dict(m["to_yaml" := v])), attrs) == Default()
  {
    var d := m["to_yaml" := v];
    assert "to_yaml" in d && "to_yaml" in attrs && "to_yaml" !in Fields;
  }
}

=== FILE: network.dfy ===
/**
 The string logic of the network checker. Every external command becomes
 its captured result: the exit code and standard output, or the fact that
 starting it raised. What the commands print is an input.
 */
module Network {
  import opened Wrappers
  import opened Text
  import opened Search
  import Models

  /** What `subprocess.run(..., capture_output=True, text=True)` gave back. */
  datatype CommandResult = Completed(returncode: int, stdout: string) | Raised

  /** `is_vpn_connected`: a zero exit and "Connected" somewhere in the `scutil --nc list` output. */
  function IsVpnConnected(r: CommandResult): (connected: bool)
    ensures connected ==> r.Completed? && r.returncode == 0
    ensures r.Completed? && r.returncode == 0 ==> (connected <==> Contains(r.stdout, "Connected"))
  {
    match r
    case Raised => false
    case Completed(code, out) => code == 0 && Contains(out, "Connected")
  }

  /** A connected service listed among disconnected ones is detected; a failing command never is. */
  lemma VpnExamples(before: string, after: string, code: int)
    requires code != 0
    ensures IsVpnConnected(Completed(0, before + "Connected" + after))
    ensures !IsVpnConnected(Completed(code, before + "Connected" + after))
    ensures !IsVpnConnected(Raised)
  {
    ContainsInfix(before, "Connected", after);
  }

  /** The Wi-Fi interfaces tried, in order. */
  const WifiInterfaces: seq<string> := ["en0", "en1"]

  /**
   The `networksetup -getairportnetwork` result shows the target network:
   a zero exit and the target inside the stripped output. A target that is
   not a string makes `in` raise, and that interface is skipped.
   */
  predicate ShowsTarget(target: Models.Value, r: CommandResult)
  {
    r.Completed? && r.returncode == 0 && target.Str? && Contains(Strip(r.stdout), target.s)
  }

  /** The Wi-Fi loop: the first interface, in order, whose result shows the target. */
  function WifiMatch(target: Models.Value, airport: string -> CommandResult): (r: Option<string>)
    ensures r.Some? <==> ShowsTarget(target, airport("en0")) || ShowsTarget(target, airport("en1"))
    ensures r.Some? ==> r.value == if ShowsTarget(target, airport("en0")) then "en0" else "en1"
  {
    FirstWhere(WifiInterfaces, iface => ShowsTarget(target, airport(iface)))
  }

  /** A line of `ifconfig` output that starts an interface block. */
  predicate IsHeaderLine(line: string)
  {
    |line| > 0 && line[0] != '\t' && line[0] != ' '
  }

  /** The interface name of a header line: the text before its first ':'. */
  function HeaderName(line: string): (name: string)
    ensures ':' !in name
    ensures StartsWith(line, name)
    ensures ':' !in line ==> name == line
    ensures ':' in line ==> |name| < |line| && line[|name|] == ':'
  {
    var name := Split(line, ':')[0];
    SplitHead(line, ':');
    name
  }

  /** A header line of an Ethernet-style interface (`en...`). */
  predicate IsEthernetHeader(line: string)
  {
    IsHeaderLine(line) && StartsWith(HeaderName(line), "en")
  }

  /** The interface names of the header lines among `lines`, in the order the lines come. */
  function NamesOf(lines: seq<string>): (names: seq<string>)
    ensures |names| <= |lines|
    ensures forall n :: n in names ==> StartsWith(n, "en") && ':' !in n
    ensures forall n :: n in names <==> exists i :: 0 <= i < |lines| && IsEthernetHeader(lines[i]) && HeaderName(lines[i]) == n
  {
    if |lines| == 0 then []
    else
      var rest := NamesOf(lines[1..]);
      assert forall i :: 1 <= i < |lines| ==> lines[i] == lines[1..][i - 1];
      if IsEthernetHeader(lines[0]) then [HeaderName(lines[0])] + rest else rest
  }

  /** Parsing line by line keeps the order: the names of two blocks of lines are the names of each, concatenated. */
  lemma {:induction false} NamesOfAppend(a: seq<string>, b: seq<string>)
    ensures NamesOf(a + b) == NamesOf(a) + NamesOf(b)
  {
    if |a| == 0 {
      assert a + b == b;
    } else {
      assert (a + b)[0] == a[0];
      assert (a + b)[1..] == a[1..] + b;
      NamesOfAppend(a[1..], b);
    }
  }

  /** The interface list parsed from the `ifconfig` listing. */
  function InterfaceNames(output: string): (names: seq<string>)
    ensures forall n :: n in names ==> StartsWith(n, "en") && ':' !in n && '\n' !in n
    ensures forall n :: n in names <==>
              exists line :: line in Split(output, '\n') && IsEthernetHeader(line) && HeaderName(line) == n
  {
    var lines := Split(output, '\n');
    var names := NamesOf(lines);
    assert forall n :: n in names ==> '\n' !in n by {
      forall n | n in names
        ensures '\n' !in n
      {
        var i :| 0 <= i < |lines| && IsEthernetHeader(lines[i]) && HeaderName(lines[i]) == n;
        assert n == lines[i][..|n|];
      }
    }
    assert forall line :: line in lines <==> exists i :: 0 <= i < |lines| && lines[i] == line;
    names
  }

  /** `ifconfig <iface>` output that claims an active link with an address. */
  predicate LooksActive(output: string)
  {
    || (Contains(output, "status: active") && Contains(output, "inet "))
    || (Contains(output, "flags=") && Contains(output, "UP") && Contains(output, "inet "))
  }

  /** A line with an IPv4 address other than the loopback one. */
  predicate IsLanAddressLine(line: string)
  {
    Contains(line, "inet ") && !Contains(line, "127.0.0.1")
  }

  /** The inner loop over the output's lines: the first with a non-loopback address. */
  method FindLanAddressLine(output: string) returns (found: Option<nat>)
    ensures found.Some? ==> found.value < |Split(output, '\n')| && IsLanAddressLine(Split(output, '\n')[found.value])
    ensures found.None? <==> forall line :: line in Split(output, '\n') ==> !IsLanAddressLine(line)
  {
    var lines := Split(output, '\n');
    var i := 0;
    while i < |lines|
      invariant 0 <= i <= |lines|
      invariant forall j :: 0 <= j < i ==> !IsLanAddressLine(lines[j])
    {
      if IsLanAddressLine(lines[i]) {
        return Some(i);
      }
      i := i + 1;
    }
    return None;
  }

  /** The wired test for one interface: zero exit, active-looking output, a non-loopback address line. */
  predicate WiredUp(r: CommandResult)
  {
    && r.Completed? && r.returncode == 0 && LooksActive(r.stdout)
    && exists line :: line in Split(r.stdout, '\n') && IsLanAddressLine(line)
  }

  /** Output with only the loopback address never counts as wired, whatever it says about the link. */
  lemma LoopbackOnlyIsNotWired(r: CommandResult)
    requires r.Completed?
    requires forall line :: line in Split(r.stdout, '\n') && Contains(line, "inet ") ==> Contains(line, "127.0.0.1")
    ensures !WiredUp(r)
  {
  }

  /** Captured results of every command the check runs. */
  datatype NetworkProbe = NetworkProbe(
    airport: string -> CommandResult,
    listing: CommandResult,
    detail: string -> CommandResult)

  /** The wired loop: the first listed interface, in order, that is up. */
  function WiredMatch(names: seq<string>, detail: string -> CommandResult): (r: Option<string>)
    ensures r.Some? <==> exists n :: n in names && WiredUp(detail(n))
    ensures r.Some? ==> r.value in names && WiredUp(detail(r.value))
  {
    FirstWhere(names, iface => WiredUp(detail(iface)))
  }

  /**
   `is_connected_to_target_network`: a Wi-Fi match on en0 or en1, or else a
   successful interface listing with some listed `en` interface up.
   */
  function IsConnectedToTargetNetwork(target: Models.Value, probe: NetworkProbe): (connected: bool)
    ensures connected <==>
              || ShowsTarget(target, probe.airport("en0"))
              || ShowsTarget(target, probe.airport("en1"))
              || (&& probe.listing.Completed? && probe.listing.returncode == 0
                  && exists n :: n in InterfaceNames(probe.listing.stdout) && WiredUp(probe.detail(n)))
  {
    if WifiMatch(target, probe.airport).Some? then true
    else if !probe.listing.Completed? || probe.listing.returncode != 0 then false
    else WiredMatch(InterfaceNames(probe.listing.stdout), probe.detail).Some?
  }

  /** A failed or raising `ifconfig` listing leaves only the Wi-Fi route. */
  lemma ListingFailureMeansWifiOnly(target: Models.Value, probe: NetworkProbe)
    requires !probe.listing.Completed? || probe.listing.returncode != 0
    ensures IsConnectedToTargetNetwork(target, probe) == WifiMatch(target, probe.airport).Some?
  {
  }
}

=== FILE: router_controller.dfy ===
/**
 The decision logic of the router controller with the browser abstracted
 away. What each step observes in the web interface (whether an element
 is found, whether a click raises, the URL after login, a CSS class) is an
 oracle record; what it does (create the driver, click, switch frames) is
 recorded in an effect trace. Waits and sleeps are not modelled; a wait
 that times out is an element that is not found.
 */
module RouterController {
  import opened Wrappers
  import opened Text
  import opened Search
  import opened Models
  import opened Trace
  import Utils
  import Network

  // ---------------------------------------------------------------------
  // SSL warning

  /** The page at the router URL, as the SSL handler sees it. */
  datatype SslPage = SslPage(
    /** "Your connection is not private" appears in the page source. */
    warningShown: bool,
    /** The "Advanced" button becomes clickable within five seconds and the click succeeds. */
    advancedClickable: bool,
    /** The "proceed" link likewise. */
    proceedClickable: bool)

  datatype SslRun = SslRun(handled: bool, effects: seq<Effect>)

  /**
   `_handle_ssl_warning`: click through the warning when it is shown. Every
   path, including a timeout or any other exception, reports success.
   */
  function HandleSslWarning(page: SslPage): (r: SslRun)
    ensures r.handled
    ensures !page.warningShown ==> r.effects == []
    ensures forall e :: e in r.effects ==> e == SslAdvancedClicked || e == SslProceedClicked
    ensures SslAdvancedClicked in r.effects <==> page.warningShown && page.advancedClickable
    ensures SslProceedClicked in r.effects <==> page.warningShown && page.advancedClickable && page.proceedClickable
    ensures ReadOnly(r.effects)
    ensures Notified !in r.effects && DriverCreated !in r.effects
  {
    if !page.warningShown then SslRun(true, [])
    else if !page.advancedClickable then SslRun(true, [])
    else if !page.proceedClickable then SslRun(true, [SslAdvancedClicked])
    else SslRun(true, [SslAdvancedClicked, SslProceedClicked])
  }

  // ---------------------------------------------------------------------
  // Login

  /** Everything the login step observes, in the order it looks. */
  datatype LoginPage = LoginPage(
    /** Loading the router URL returns. */
    loads: bool,
    ssl: SslPage,
    /** Credentials come back from the keychain or the prompt without raising. */
    credentials: bool,
    /** The username field appears within the configured timeout. */
    usernameField: bool,
    passwordField: bool,
    /** The login link is found and clicked. */
    loginButton: bool,
    /** Reading the URL after submission returns, with this value. */
    urlRead: bool,
    urlAfterSubmit: string,
    /** The takeover selectors whose lookup and click succeed on the multi-login page. */
    takeover: set<string>,
    /** The takeover selectors after whose click the following URL read returns. */
    takeoverUrlRead: set<string>,
    /** The lookups of the username and password fields after submission: whether they find anything, `None` when they raise. */
    usernameLookup: Option<bool>,
    passwordLookup: Option<bool>,
    /**
     Every read of the page source the closing scan makes returns. The scan
     reads it again for each admin-panel word it tries, up to four times.
     */
    pageSourceRead: bool)

  /** The candidates for the "Yes" button of the multi-login page, in priority order. */
  const TakeoverSelectors: seq<string> := [
    "#yes", "div[onclick*='login']", "div:contains('Yes')", "input[value*='Yes']",
    "input[value*='yes']", "input[value*='OK']", "button[type='submit']", "input[type='submit']"]

  /** No selector is listed twice, so `LoopClicked` determines the clicks over this list (`LoopClickedUnique`). */
  lemma TakeoverSelectorsDistinct()
    ensures forall i, j :: 0 <= i < j < |TakeoverSelectors| ==> TakeoverSelectors[i] != TakeoverSelectors[j]
  {
  }

  /** The form was filled and submitted without any step raising. */
  predicate FormSubmitted(page: LoginPage)
  {
    page.loads && page.credentials && page.usernameField && page.passwordField && page.loginButton
  }

  /** The URL after submission is the concurrent-session page. */
  predicate OnMultiLogin(url: string)
  {
    Contains(ToLower(url), "multi_login")
  }

  /** The URL after submission leads to the check for the login form. */
  predicate ChecksLoginForm(page: LoginPage)
  {
    !OnMultiLogin(page.urlAfterSubmit) && Contains(ToLower(page.urlAfterSubmit), "login")
  }

  /**
   The value of `find_elements(username) and find_elements(password)`: the
   password lookup runs only when the username one finds something, and
   `None` stands for a lookup that raises.
   */
  function FormStillShown(page: LoginPage): (shown: Option<bool>)
    ensures shown == Some(true) <==> page.usernameLookup == Some(true) && page.passwordLookup == Some(true)
    ensures shown == Some(false) <==>
              page.usernameLookup == Some(false) || (page.usernameLookup == Some(true) && page.passwordLookup == Some(false))
  {
    match page.usernameLookup
    case None => None
    case Some(found) => if found then page.passwordLookup else Some(false)
  }

  /** The login-form check rejects the login, either because the form is still shown or because a lookup raises. */
  predicate FormCheckFails(page: LoginPage)
  {
    ChecksLoginForm(page) && FormStillShown(page) != Some(false)
  }

  predicate LoginSucceeds(page: LoginPage)
  {
    FormSubmitted(page) && page.urlRead && !FormCheckFails(page) && page.pageSourceRead
  }

  datatype LoginRun = LoginRun(ok: bool, effects: seq<Effect>)

  /** A takeover candidate whose click works and is followed by a URL read that returns: the loop breaks after it. */
  predicate Completes(s: string, page: LoginPage)
  {
    s in page.takeover && s in page.takeoverUrlRead
  }

  /** The takeover loop gets as far as candidate `i`: no earlier candidate completed. */
  predicate Reached(cands: seq<string>, i: int, page: LoginPage)
    requires i <= |cands|
  {
    forall j :: 0 <= j < i ==> !Completes(cands[j], page)
  }

  /** `xs` is `ys` with some elements left out: the same elements in the same order, each used once. */
  predicate InOrder(xs: seq<string>, ys: seq<string>)
    decreases |ys|
  {
    if |xs| == 0 then true
    else if |ys| == 0 then false
    else (xs[0] == ys[0] && InOrder(xs[1..], ys[1..])) || InOrder(xs, ys[1..])
  }

  /** Clicks out of list order, or one candidate clicked twice, are not in order. */
  lemma InOrderExamples()
    ensures InOrder(["a", "b"], ["a", "b"])
    ensures !InOrder(["b", "a"], ["a", "b"])
    ensures !InOrder(["a", "a"], ["a", "b"])
  {
    assert ["a", "b"][1..] == ["b"];
    assert ["b", "a"][1..] == ["a"];
    assert ["a", "a"][1..] == ["a"];
    assert ["b"][1..] == [];
    assert ["a"][1..] == [];
  }

  /**
   `clicked` is what the takeover loop over `cands` clicks, in the list's
   order and each candidate position at most once: working
   candidates only, each reached (no earlier candidate completed); every
   working candidate it reaches; and a URL read that returns only after the
   last click, which is a completing one whenever any candidate completes.
   Over a list that repeats a candidate the clicks are not pinned down
   (`["a"]` and `["a", "a"]` both qualify for `["a", "a"]`); the selector
   list has no repeats (`TakeoverSelectorsDistinct`).
   */
  predicate LoopClicked(cands: seq<string>, page: LoginPage, clicked: seq<string>)
  {
    && InOrder(clicked, cands)
    && (forall s :: s in clicked ==>
          s in page.takeover && exists i :: 0 <= i < |cands| && cands[i] == s && Reached(cands, i, page))
    && (forall i :: 0 <= i < |cands| && cands[i] in page.takeover && Reached(cands, i, page) ==> cands[i] in clicked)
    && (forall k :: 0 <= k < |clicked| - 1 ==> clicked[k] !in page.takeoverUrlRead)
    && ((exists i :: 0 <= i < |cands| && Completes(cands[i], page)) ==>
          |clicked| > 0 && Completes(clicked[|clicked| - 1], page))
  }

  /** Past a candidate that does not complete, the loop reaches the later ones exactly as it would from there. */
  lemma ReachedShift(cands: seq<string>, page: LoginPage)
    requires |cands| > 0 && !Completes(cands[0], page)
    ensures forall i :: 1 <= i <= |cands| ==> (Reached(cands, i, page) <==> Reached(cands[1..], i - 1, page))
  {
    assert forall j :: 1 <= j < |cands| ==> cands[j] == cands[1..][j - 1];
  }

  /** The loop's step past a candidate that does not complete: clicked first when it works, skipped otherwise. */
  lemma LoopClickedStep(cands: seq<string>, page: LoginPage, rest: seq<string>)
    requires |cands| > 0 && !Completes(cands[0], page)
    requires LoopClicked(cands[1..], page, rest)
    ensures LoopClicked(cands, page, if cands[0] in page.takeover then [cands[0]] + rest else rest)
  {
    StepKeepsOrder(cands, page, rest);
    StepKeepsReach(cands, page, rest);
  }

  /** The ordering half of `LoopClickedStep`: list order, and URL reads that return only after the last click. */
  lemma StepKeepsOrder(cands: seq<string>, page: LoginPage, rest: seq<string>)
    requires |cands| > 0 && !Completes(cands[0], page)
    requires InOrder(rest, cands[1..])
    requires forall k :: 0 <= k < |rest| - 1 ==> rest[k] !in page.takeoverUrlRead
    ensures var clicked := if cands[0] in page.takeover then [cands[0]] + rest else rest;
            && InOrder(clicked, cands)
            && forall k :: 0 <= k < |clicked| - 1 ==> clicked[k] !in page.takeoverUrlRead
  {
    if cands[0] in page.takeover {
      var clicked := [cands[0]] + rest;
      assert forall k :: 1 <= k < |clicked| ==> clicked[k] == rest[k - 1];
      assert clicked[1..] == rest;
    }
  }

  /** The reachability half of `LoopClickedStep`: which candidates are clicked, and the completing one last. */
  lemma StepKeepsReach(cands: seq<string>, page: LoginPage, rest: seq<string>)
    requires |cands| > 0 && !Completes(cands[0], page)
    requires LoopClicked(cands[1..], page, rest)
    ensures var clicked := if cands[0] in page.takeover then [cands[0]] + rest else rest;
            && (forall s :: s in clicked ==>
                  s in page.takeover && exists i :: 0 <= i < |cands| && cands[i] == s && Reached(cands, i, page))
            && (forall i :: 0 <= i < |cands| && cands[i] in page.takeover && Reached(cands, i, page) ==> cands[i] in clicked)
            && ((exists i :: 0 <= i < |cands| && Completes(cands[i], page)) ==>
                  |clicked| > 0 && Completes(clicked[|clicked| - 1], page))
  {
    assert forall j :: 1 <= j < |cands| ==> cands[j] == cands[1..][j - 1];
    ReachedShift(cands, page);
    assert Reached(cands, 0, page);
  }


  /**
   The candidates the takeover loop clicks, in order. A lookup or click that
   raises moves on to the next candidate; so does a URL read that raises
   after a click, which therefore leaves that click done and the loop going.
   */
  function TakeoverClicks(cands: seq<string>, page: LoginPage): (clicked: seq<string>)
    ensures LoopClicked(cands, page, clicked)
    decreases |cands|
  {
    if |cands| == 0 then []
    else if Completes(cands[0], page) then
      assert Reached(cands, 0, page);
      assert [cands[0]][1..] == [];
      [cands[0]]
    else
      var rest := TakeoverClicks(cands[1..], page);
      LoopClickedStep(cands, page, rest);
      if cands[0] in page.takeover then [cands[0]] + rest else rest
  }

  /** No element of `xs` occurs twice. */
  predicate Distinct(xs: seq<string>)
  {
    forall i, j :: 0 <= i < j < |xs| ==> xs[i] != xs[j]
  }

  /** Whatever is in order with `ys` is drawn from `ys`. */
  lemma {:induction false} InOrderMembers(xs: seq<string>, ys: seq<string>)
    requires InOrder(xs, ys)
    ensures forall x :: x in xs ==> x in ys
    decreases |ys|
  {
    if |xs| > 0 {
      assert forall x :: x in xs ==> x == xs[0] || x in xs[1..];
      assert forall y :: y in ys[1..] ==> y in ys;
      if xs[0] == ys[0] && InOrder(xs[1..], ys[1..]) {
        InOrderMembers(xs[1..], ys[1..]);
      } else {
        InOrderMembers(xs, ys[1..]);
      }
    }
  }

  /** The ordering half of `LoopClickedUnstep`: the candidate leads the clicks exactly when it is among them. */
  lemma InOrderUnstep(cands: seq<string>, clicked: seq<string>)
    requires |cands| > 0 && Distinct(cands) && InOrder(clicked, cands)
    ensures var rest := if cands[0] in clicked then clicked[1..] else clicked;
            && clicked == (if cands[0] in clicked then [cands[0]] + rest else rest)
            && InOrder(rest, cands[1..]) && cands[0] !in rest
  {
    var tail := cands[1..];
    assert forall j :: 1 <= j < |cands| ==> cands[j] == tail[j - 1];
    assert cands[0] !in tail;
    if cands[0] in clicked {
      if !(clicked[0] == cands[0] && InOrder(clicked[1..], tail)) {
        InOrderMembers(clicked, tail);
        assert false;
      }
      InOrderMembers(clicked[1..], tail);
      assert clicked == [cands[0]] + clicked[1..];
    } else if |clicked| > 0 {
      assert clicked[0] != cands[0];
      InOrderMembers(clicked, tail);
    }
  }

  /**
   Undoing one step of the loop past a candidate that does not complete: over
   a list without repeats, clicks that satisfy `LoopClicked` start with the
   candidate when it works, and the rest satisfy `LoopClicked` for the
   remaining candidates.
   */
  lemma LoopClickedUnstep(cands: seq<string>, page: LoginPage, clicked: seq<string>)
    requires |cands| > 0 && !Completes(cands[0], page) && Distinct(cands)
    requires LoopClicked(cands, page, clicked)
    ensures var rest := if cands[0] in page.takeover then clicked[1..] else clicked;
            && clicked == (if cands[0] in page.takeover then [cands[0]] + rest else rest)
            && LoopClicked(cands[1..], page, rest)
  {
    assert Reached(cands, 0, page);
    assert cands[0] in clicked <==> cands[0] in page.takeover;
    InOrderUnstep(cands, clicked);
    assert cands[0] !in cands[1..] by {
      assert forall j :: 1 <= j < |cands| ==> cands[j] == cands[1..][j - 1];
    }
    var rest := if cands[0] in page.takeover then clicked[1..] else clicked;
    assert forall s :: s in clicked <==> s in rest || (s == cands[0] && cands[0] in page.takeover);
    UnstepDrawn(cands, page, clicked, rest);
    UnstepCovers(cands, page, clicked, rest);
    UnstepLast(cands, page, clicked, rest);
    UnstepUrl(page, clicked, rest);
  }

  /** Part of `LoopClickedUnstep`: dropping the first click keeps every URL read that returns after the last click. */
  lemma UnstepUrl(page: LoginPage, clicked: seq<string>, rest: seq<string>)
    requires forall k :: 0 <= k < |clicked| - 1 ==> clicked[k] !in page.takeoverUrlRead
    requires clicked == rest || (|clicked| > 0 && rest == clicked[1..])
    ensures forall k :: 0 <= k < |rest| - 1 ==> rest[k] !in page.takeoverUrlRead
  {
    if clicked != rest {
      assert forall k :: 0 <= k < |rest| ==> rest[k] == clicked[k + 1];
    }
  }

  /** Part of `LoopClickedUnstep`: the remaining clicks are working candidates the loop reaches in the remaining list. */
  lemma UnstepDrawn(cands: seq<string>, page: LoginPage, clicked: seq<string>, rest: seq<string>)
    requires |cands| > 0 && !Completes(cands[0], page)
    requires forall s :: s in clicked ==>
               s in page.takeover && exists i :: 0 <= i < |cands| && cands[i] == s && Reached(cands, i, page)
    requires forall s :: s in rest ==> s in clicked && s != cands[0]
    ensures forall s :: s in rest ==>
              s in page.takeover && exists i :: 0 <= i < |cands[1..]| && cands[1..][i] == s && Reached(cands[1..], i, page)
  {
    ReachedShift(cands, page);
    forall s | s in rest
      ensures exists i :: 0 <= i < |cands[1..]| && cands[1..][i] == s && Reached(cands[1..], i, page)
    {
      var i :| 0 <= i < |cands| && cands[i] == s && Reached(cands, i, page);
      assert cands[1..][i - 1] == s;
    }
  }

  /** Part of `LoopClickedUnstep`: every working candidate the loop reaches in the remaining list is among the remaining clicks. */
  lemma UnstepCovers(cands: seq<string>, page: LoginPage, clicked: seq<string>, rest: seq<string>)
    requires |cands| > 0 && !Completes(cands[0], page) && cands[0] !in cands[1..]
    requires forall i :: 0 <= i < |cands| && cands[i] in page.takeover && Reached(cands, i, page) ==> cands[i] in clicked
    requires forall s :: s in clicked && s != cands[0] ==> s in rest
    ensures forall i :: 0 <= i < |cands[1..]| && cands[1..][i] in page.takeover && Reached(cands[1..], i, page) ==>
              cands[1..][i] in rest
  {
    ReachedShift(cands, page);
    forall i | 0 <= i < |cands[1..]| && cands[1..][i] in page.takeover && Reached(cands[1..], i, page)
      ensures cands[1..][i] in rest
    {
      assert Reached(cands, i + 1, page) && cands[i + 1] == cands[1..][i];
    }
  }

  /** Part of `LoopClickedUnstep`: a completing candidate in the remaining list makes the last remaining click a completing one. */
  lemma UnstepLast(cands: seq<string>, page: LoginPage, clicked: seq<string>, rest: seq<string>)
    requires |cands| > 0 && !Completes(cands[0], page)
    requires (exists i :: 0 <= i < |cands| && Completes(cands[i], page)) ==>
               |clicked| > 0 && Completes(clicked[|clicked| - 1], page)
    requires clicked == rest || clicked == [cands[0]] + rest
    ensures (exists i :: 0 <= i < |cands[1..]| && Completes(cands[1..][i], page)) ==>
              |rest| > 0 && Completes(rest[|rest| - 1], page)
  {
    if exists i :: 0 <= i < |cands[1..]| && Completes(cands[1..][i], page) {
      var i :| 0 <= i < |cands[1..]| && Completes(cands[1..][i], page);
      assert cands[i + 1] == cands[1..][i];
      assert |rest| > 0;
      assert rest[|rest| - 1] == clicked[|clicked| - 1];
    }
  }




  /**
   Over a list without repeats `LoopClicked` pins the clicks down: the only
   click list it admits is the one the loop makes.
   */
  lemma {:induction false} LoopClickedUnique(cands: seq<string>, page: LoginPage, clicked: seq<string>)
    requires Distinct(cands) && LoopClicked(cands, page, clicked)
    ensures clicked == TakeoverClicks(cands, page)
    decreases |cands|
  {
    if |cands| == 0 {
      assert |clicked| == 0;
    } else if Completes(cands[0], page) {
      assert Reached(cands, 0, page);
      assert cands[0] in clicked;
      forall s | s in clicked
        ensures s == cands[0]
      {
        var i :| 0 <= i < |cands| && cands[i] == s && Reached(cands, i, page);
        assert i == 0;
      }
      assert clicked[0] in clicked;
      assert clicked[0] in page.takeoverUrlRead;
      assert |clicked| == 1;
      assert clicked == [cands[0]];
    } else {
      var rest := if cands[0] in page.takeover then clicked[1..] else clicked;
      LoopClickedUnstep(cands, page, clicked);
      assert Distinct(cands[1..]) by {
        assert forall j :: 1 <= j < |cands| ==> cands[j] == cands[1..][j - 1];
      }
      LoopClickedUnique(cands[1..], page, rest);
    }
  }

  /** The trace of clicking `clicked`, in order. */
  function ClickEffects(clicked: seq<string>): (es: seq<Effect>)
    ensures |es| == |clicked| && forall i :: 0 <= i < |clicked| ==> es[i] == TakeoverClicked(clicked[i])
    ensures forall s :: TakeoverClicked(s) in es <==> s in clicked
    ensures ReadOnly(es)
    ensures Notified !in es && DriverCreated !in es && LoginSubmitted !in es
  {
    var es := seq(|clicked|, i requires 0 <= i < |clicked| => TakeoverClicked(clicked[i]));
    ClickTrace(clicked, es);
    es
  }

  /** A trace of one takeover click per selector holds the clicks of exactly those selectors and nothing else. */
  lemma ClickTrace(clicked: seq<string>, es: seq<Effect>)
    requires |es| == |clicked| && forall i :: 0 <= i < |clicked| ==> es[i] == TakeoverClicked(clicked[i])
    ensures forall s :: TakeoverClicked(s) in es <==> s in clicked
    ensures ReadOnly(es)
    ensures Notified !in es && DriverCreated !in es && LoginSubmitted !in es
  {
    forall s | s in clicked
      ensures TakeoverClicked(s) in es
    {
      var i :| 0 <= i < |clicked| && clicked[i] == s;
      assert es[i] == TakeoverClicked(s);
    }
  }


  /**
   What follows a submission: reading the URL, then on the multi-login page
   the takeover loop (whose failures never fail the login), otherwise the
   check for still being on the login form, and last the page source read
   for the closing scan.
   */
  function AfterSubmit(page: LoginPage): (r: LoginRun)
    ensures r.ok <==> page.urlRead && !FormCheckFails(page) && page.pageSourceRead
    ensures forall s :: TakeoverClicked(s) in r.effects <==>
              page.urlRead && OnMultiLogin(page.urlAfterSubmit) && s in TakeoverClicks(TakeoverSelectors, page)
    ensures page.urlRead && OnMultiLogin(page.urlAfterSubmit) ==>
              r.effects == ClickEffects(TakeoverClicks(TakeoverSelectors, page))
    ensures !(page.urlRead && OnMultiLogin(page.urlAfterSubmit)) ==> r.effects == []
    ensures LoginSubmitted !in r.effects
    ensures ReadOnly(r.effects)
    ensures Notified !in r.effects && DriverCreated !in r.effects
  {
    if !page.urlRead then LoginRun(false, [])
    else if OnMultiLogin(page.urlAfterSubmit) then
      LoginRun(page.pageSourceRead, ClickEffects(TakeoverClicks(TakeoverSelectors, page)))
    else if Contains(ToLower(page.urlAfterSubmit), "login") && FormStillShown(page) != Some(false) then
      LoginRun(false, [])
    else
      LoginRun(page.pageSourceRead, [])
  }

  /**
   `_login_to_router` without its decorator. It never raises: every
   exception is caught and reported as `false`. The SSL handler always
   reports success, so its failure branch is dead. The closing scan for
   admin panel words returns true on both branches, so only the read of
   the page source can change the outcome.
   */
  function Login(routerUrl: Value, page: LoginPage): (r: LoginRun)
    ensures r.ok <==> LoginSucceeds(page)
    ensures LoginSubmitted in r.effects <==> FormSubmitted(page)
    ensures forall s :: TakeoverClicked(s) in r.effects <==>
              FormSubmitted(page) && page.urlRead && OnMultiLogin(page.urlAfterSubmit)
              && s in TakeoverClicks(TakeoverSelectors, page)
    ensures FormSubmitted(page) ==>
              r.effects == [Visited(routerUrl)] + HandleSslWarning(page.ssl).effects + [LoginSubmitted] + AfterSubmit(page).effects
    ensures ReadOnly(r.effects)
    ensures Notified !in r.effects && DriverCreated !in r.effects
  {
    if !page.loads then LoginRun(false, [])
    else
      var ssl := HandleSslWarning(page.ssl);
      var before := [Visited(routerUrl)] + ssl.effects;
      ReadOnlyAppend([Visited(routerUrl)], ssl.effects);
      if !(page.credentials && page.usernameField && page.passwordField && page.loginButton) then
        LoginRun(false, before)
      else
        var after := AfterSubmit(page);
        ReadOnlyAppend(before, [LoginSubmitted]);
        ReadOnlyAppend(before + [LoginSubmitted], after.effects);
        LoginRun(after.ok, before + [LoginSubmitted] + after.effects)
  }

  /** In a trace split around its only submission, nothing before it is a takeover click. */
  lemma SubmittedBefore(before: seq<Effect>, after: seq<Effect>)
    requires LoginSubmitted !in before && LoginSubmitted !in after
    requires forall e :: e in before ==> !e.TakeoverClicked?
    ensures var es := before + [LoginSubmitted] + after;
            forall i, j | 0 <= i < |es| && 0 <= j < |es| && es[i] == LoginSubmitted && es[j].TakeoverClicked? :: i < j
  {
    var es := before + [LoginSubmitted] + after;
    forall i, j | 0 <= i < |es| && 0 <= j < |es| && es[i] == LoginSubmitted && es[j].TakeoverClicked?
      ensures i < j
    {
      assert forall k | 0 <= k < |before| :: es[k] == before[k];
      assert forall k | |before| < k < |es| :: es[k] == after[k - |before| - 1];
    }
  }

  /** Every takeover click of a login comes after the form was submitted. */
  lemma TakeoverClicksFollowSubmit(routerUrl: Value, page: LoginPage)
    ensures var es := Login(routerUrl, page).effects;
            forall i, j | 0 <= i < |es| && 0 <= j < |es| && es[i] == LoginSubmitted && es[j].TakeoverClicked? :: i < j
  {
    if FormSubmitted(page) {
      var before := [Visited(routerUrl)] + HandleSslWarning(page.ssl).effects;
      assert forall e :: e in before ==> !e.TakeoverClicked? && e != LoginSubmitted;
      SubmittedBefore(before, AfterSubmit(page).effects);
    }
  }

  /** The SSL handler cannot change the login's verdict: whatever the warning page does, the outcome is the same. */
  lemma LoginIgnoresSsl(routerUrl: Value, page: LoginPage, other: SslPage)
    ensures Login(routerUrl, page).ok == Login(routerUrl, page.(ssl := other)).ok
  {
  }

  /**
   A failed takeover does not fail the login: once the multi-login page is
   read, the outcome depends only on the closing page source read, whatever
   the takeover candidates do.
   */
  lemma MultiLoginAlwaysProceeds(routerUrl: Value, page: LoginPage, takeover: set<string>, urlRead: set<string>)
    requires FormSubmitted(page) && page.urlRead && OnMultiLogin(page.urlAfterSubmit)
    ensures Login(routerUrl, page).ok == page.pageSourceRead
    ensures Login(routerUrl, page).ok == Login(routerUrl, page.(takeover := takeover, takeoverUrlRead := urlRead)).ok
  {
  }

  /**
   When every candidate clicks but every URL read after a click raises, the
   loop clicks all the candidates in turn (all eight, for the real list).
   */
  lemma {:induction false} FailedUrlReadsClickEveryCandidate(cands: seq<string>, page: LoginPage)
    requires forall i :: 0 <= i < |cands| ==> cands[i] in page.takeover && cands[i] !in page.takeoverUrlRead
    ensures TakeoverClicks(cands, page) == cands
  {
    if |cands| > 0 {
      assert forall i :: 0 <= i < |cands[1..]| ==> cands[1..][i] == cands[i + 1];
      FailedUrlReadsClickEveryCandidate(cands[1..], page);
      assert cands == [cands[0]] + cands[1..];
    }
  }

  /** When the first candidate clicks and the URL read after it returns, it is the only click. */
  lemma FirstCompletingCandidateIsOnlyClick(page: LoginPage)
    requires Completes(TakeoverSelectors[0], page)
    ensures TakeoverClicks(TakeoverSelectors, page) == [TakeoverSelectors[0]]
  {
  }

  // ---------------------------------------------------------------------
  // Advanced settings

  /** What navigating to the advanced settings observes. */
  datatype AdminPage = AdminPage(
    /** Loading the admin URL returns. */
    loads: bool,
    /** The "Advanced Setup" button becomes clickable within the timeout and is clicked. */
    advancedButton: bool,
    /** For each iframe, in order, whether the settings marker appears in it within six seconds. */
    iframeMarker: seq<bool>,
    /** The marker appears in the main document within three seconds. */
    mainQuick: bool,
    /** Or within the final ten-second wait. */
    mainLong: bool)

  predicate NavigationSucceeds(page: AdminPage)
  {
    page.loads && page.advancedButton && (true in page.iframeMarker || page.mainQuick || page.mainLong)
  }

  datatype NavRun = NavRun(ok: bool, effects: seq<Effect>)

  /**
   `_navigate_to_advanced_settings`: open the admin page, expand Advanced
   Setup, then look for the settings marker in each iframe in turn, then in
   the main document (short wait, then long wait). Focus stays in the first
   iframe that has the marker.
   */
  function NavigateToAdvancedSettings(adminUrl: Value, page: AdminPage): (r: NavRun)
    ensures r.ok <==> NavigationSucceeds(page)
    ensures forall i: nat :: FrameEntered(IframeAt(i)) in r.effects <==>
              page.loads && page.advancedButton && FirstIndex(page.iframeMarker, b => b) == Some(i)
    ensures ReadOnly(r.effects)
    ensures Notified !in r.effects && DriverCreated !in r.effects
  {
    if !page.loads then NavRun(false, [])
    else if !page.advancedButton then NavRun(false, [Visited(adminUrl)])
    else
      var expanded := [Visited(adminUrl), AdvancedSetupClicked];
      match FirstIndex(page.iframeMarker, b => b)
      case Some(i) => NavRun(true, expanded + [FrameEntered(IframeAt(i))])
      case None => NavRun(page.mainQuick || page.mainLong, expanded)
  }

  // ---------------------------------------------------------------------
  // Status

  /** Python's `if "img_status_good" in cls: ... elif ...error... elif ...warning...`. */
  function Classify(cls: string): (s: RadioStatus)
    ensures s == RadioOn <==> Contains(cls, "img_status_good")
    ensures s == RadioOff <==>
              !Contains(cls, "img_status_good")
              && (Contains(cls, "img_status_error") || Contains(cls, "img_status_warning"))
    ensures s == UnexpectedFailure <==>
              !Contains(cls, "img_status_good") && !Contains(cls, "img_status_error")
              && !Contains(cls, "img_status_warning")
    ensures s != NotConnectedToRouter
  {
    if Contains(cls, "img_status_good") then RadioOn
    else if Contains(cls, "img_status_error") then RadioOff
    else if Contains(cls, "img_status_warning") then RadioOff
    else UnexpectedFailure
  }

  /** `sub` is not at `i` when one of its characters differs there. */
  lemma MismatchAt(s: string, sub: string, i: int, k: nat)
    requires 0 <= i && k < |sub| && i + k < |s| && s[i + k] != sub[k]
    ensures !OccursAt(s, sub, i)
  {
  }

  /** "img_status_error" does not contain the good marker. */
  lemma ErrorMarkerIsNotGood()
    ensures !Contains("img_status_error", "img_status_good")
  {
    MismatchAt("img_status_error", "img_status_good", 0, 11);
    MismatchAt("img_status_error", "img_status_good", 1, 0);
  }

  /** "img_status_warning" does not contain the good marker. */
  lemma WarningMarkerIsNotGood()
    ensures !Contains("img_status_warning", "img_status_good")
  {
    MismatchAt("img_status_warning", "img_status_good", 0, 11);
    MismatchAt("img_status_warning", "img_status_good", 1, 0);
    MismatchAt("img_status_warning", "img_status_good", 2, 0);
    MismatchAt("img_status_warning", "img_status_good", 3, 0);
  }

  /** "img_status_warning" does not contain the error marker. */
  lemma WarningMarkerIsNotError()
    ensures !Contains("img_status_warning", "img_status_error")
  {
    MismatchAt("img_status_warning", "img_status_error", 0, 11);
    MismatchAt("img_status_warning", "img_status_error", 1, 0);
    MismatchAt("img_status_warning", "img_status_error", 2, 0);
  }

  /** The markers the status page uses, classified. */
  lemma ClassifyExamples()
    ensures Classify("img_status_good") == RadioOn
    ensures Classify("img_status_error") == RadioOff
    ensures Classify("img_status_warning") == RadioOff
    ensures Classify("img_status_off") == UnexpectedFailure
  {
    assert OccursAt("img_status_good", "img_status_good", 0);
    assert OccursAt("img_status_error", "img_status_error", 0);
    assert OccursAt("img_status_warning", "img_status_warning", 0);
    ErrorMarkerIsNotGood();
    WarningMarkerIsNotGood();
    WarningMarkerIsNotError();
    // "img_status_off" is shorter than all three
    ShortNotContains("img_status_off", "img_status_good");
    ShortNotContains("img_status_off", "img_status_error");
    ShortNotContains("img_status_off", "img_status_warning");
  }

  /** What reading the status observes, once positioned by the navigation. */
  datatype StatusPage = StatusPage(
    /** The settings container is found in the current frame. */
    contentInFocus: bool,
    /** No iframe (None), or whether the container is inside the first iframe. */
    firstIframe: Option<bool>,
    /** The 2.4GHz section is found inside the container. */
    wirelessSection: bool,
    /** Its title block is found inside the section. */
    titleBlock: bool,
    /** The class of the status indicator in the title block; None when there is none. */
    statusClass: Option<string>)

  /** The container is found, here or in the first iframe. */
  predicate ContainerFound(page: StatusPage)
  {
    page.contentInFocus || page.firstIframe == Some(true)
  }

  /** Every lookup down to the status indicator succeeds. */
  predicate IndicatorFound(page: StatusPage)
  {
    ContainerFound(page) && page.wirelessSection && page.titleBlock && page.statusClass.Some?
  }

  datatype StatusRun = StatusRun(status: RadioStatus, effects: seq<Effect>)

  /** `_get_radio_status_from_ui`: locate the indicator and classify its class; any failed lookup is a failure. */
  function ReadStatus(page: StatusPage): (r: StatusRun)
    ensures IndicatorFound(page) ==> r.status == Classify(page.statusClass.value)
    ensures !IndicatorFound(page) ==> r.status == UnexpectedFailure
    ensures r.status == RadioOn <==> IndicatorFound(page) && Contains(page.statusClass.value, "img_status_good")
    ensures r.status != NotConnectedToRouter
    ensures ReadOnly(r.effects)
    ensures DriverCreated !in r.effects
  {
    var frames :=
      if page.contentInFocus then []
      else if page.firstIframe.Some? then [FrameEntered(IframeAt(0))]
      else [];
    if !ContainerFound(page) then
      StatusRun(UnexpectedFailure, if page.firstIframe.Some? then frames + [DefaultContent] else frames)
    else if !page.wirelessSection || !page.titleBlock then StatusRun(UnexpectedFailure, frames)
    else
      match page.statusClass
      case None => StatusRun(UnexpectedFailure, frames)
      case Some(cls) => StatusRun(Classify(cls), frames)
  }

  // ---------------------------------------------------------------------
  // Toggle

  /** What the toggle step observes on the wireless settings sub-page. */
  datatype TogglePage = TogglePage(
    /** The settings container is found in the current frame. */
    contentInFocus: bool,
    /** How many iframes the page has, for the container fallback. */
    iframeCount: nat,
    /** The container is inside the second iframe. */
    contentInSecondIframe: bool,
    /** The "Wireless Settings" link becomes clickable within the timeout and is clicked. */
    wirelessLink: bool,
    /** A frame named "formframe" appears within the timeout. */
    formframeByName: bool,
    /** The name attributes of the iframes, for the frame fallback. */
    iframeNames: seq<string>,
    /** The checkbox with id enable_ap appears within the timeout. */
    checkboxById: bool,
    /** The fallback selectors that find the checkbox. */
    checkboxFallbacks: set<string>,
    /** The checkbox is currently checked (radio on). */
    checkboxSelected: bool,
    /** The checkbox's label is found and clicked. */
    labelClick: bool,
    /** The script-level click runs without raising. */
    scriptClick: bool,
    /** The Apply selectors that find a button. */
    applyFound: set<string>,
    /** Clicking the found Apply button does not raise. */
    applyClick: bool)

  const CheckboxSelectors: seq<string> := [
    "input[name='enable_ap']", "input[type='checkbox'][value='1']", "tr#ap_bgn input[type='checkbox']"]

  const ApplySelectors: seq<string> := [
    "#apply", "input[value='Apply']", "input[type='submit'][value*='Apply']", "button[value*='Apply']"]

  /**
   The container is reachable: found in the current frame, or in the second
   iframe. With fewer than two iframes the index lookup raises.
   */
  predicate ContentReachable(page: TogglePage)
  {
    page.contentInFocus || (page.iframeCount >= 2 && page.contentInSecondIframe)
  }

  predicate CheckboxFound(page: TogglePage)
  {
    page.checkboxById || FirstWhere(CheckboxSelectors, s => s in page.checkboxFallbacks).Some?
  }

  /** Every step up to reading the checkbox succeeds. */
  predicate ReachesCheckbox(page: TogglePage)
  {
    ContentReachable(page) && page.wirelessLink && CheckboxFound(page)
  }

  /** The first Apply selector that finds a button. */
  function ApplyButton(page: TogglePage): (b: Option<string>)
    ensures b.Some? ==> b.value in ApplySelectors && b.value in page.applyFound
    ensures b.None? <==> forall i :: 0 <= i < |ApplySelectors| ==> ApplySelectors[i] !in page.applyFound
    ensures b.Some? ==> exists j :: 0 <= j < |ApplySelectors| && ApplySelectors[j] == b.value
                                    && forall k :: 0 <= k < j ==> ApplySelectors[k] !in page.applyFound
  {
    FirstWhere(ApplySelectors, s => s in page.applyFound)
  }

  /** An iframe name that mentions "form", in any case. */
  predicate NamesForm(name: string)
  {
    Contains(ToLower(name), "form")
  }

  /** The focus moves to the form frame: by name, else the first iframe whose name mentions "form", else nowhere. */
  function FormFrame(page: TogglePage): (es: seq<Effect>)
    ensures Navigation(es)
    ensures page.formframeByName ==> es == [FrameEntered(NamedFrame("formframe"))]
    ensures !page.formframeByName ==>
              (es == [] <==> forall i :: 0 <= i < |page.iframeNames| ==> !NamesForm(page.iframeNames[i]))
    ensures forall i: nat ::
              && !page.formframeByName && i < |page.iframeNames| && NamesForm(page.iframeNames[i])
              && (forall j :: 0 <= j < i ==> !NamesForm(page.iframeNames[j]))
              ==> es == [FrameEntered(IframeAt(i))]
  {
    if page.formframeByName then [FrameEntered(NamedFrame("formframe"))]
    else
      match FirstIndex(page.iframeNames, NamesForm)
      case Some(i) => [FrameEntered(IframeAt(i))]
      case None => []
  }

  /** Entering the second iframe when the container is not in the current frame. */
  function ContentFrame(page: TogglePage): (es: seq<Effect>)
    ensures Navigation(es)
    ensures |es| <= 1
    ensures FrameEntered(IframeAt(1)) in es <==> !page.contentInFocus
    ensures forall f :: FrameEntered(f) in es ==> f == IframeAt(1)
  {
    if page.contentInFocus then [] else [FrameEntered(IframeAt(1))]
  }

  /** The steps up to reading the checkbox, when they all succeed. */
  function ApproachCheckbox(page: TogglePage): (es: seq<Effect>)
    ensures Navigation(es)
  {
    var linked := ContentFrame(page) + [DefaultContent, WirelessSettingsClicked];
    NavigationAppend(ContentFrame(page), [DefaultContent, WirelessSettingsClicked]);
    NavigationAppend(linked, FormFrame(page));
    linked + FormFrame(page)
  }

  /** The trace when some step before reading the checkbox fails. */
  function ApproachFailure(page: TogglePage): (es: seq<Effect>)
    ensures Navigation(es)
  {
    if !ContentReachable(page) then
      if !page.contentInFocus && page.iframeCount >= 2 then [FrameEntered(IframeAt(1)), DefaultContent] else []
    else if !page.wirelessLink then
      NavigationAppend(ContentFrame(page), [DefaultContent]);
      ContentFrame(page) + [DefaultContent]
    else
      ApproachCheckbox(page)
  }

  datatype ToggleRun = ToggleRun(result: ActionResult, effects: seq<Effect>)

  /** The trace of a successful change: one activation, one Apply click, then the notification when asked for. */
  function Applied(how: Activation, sel: string, notify: bool): (es: seq<Effect>)
    ensures Count(es, IsActivation) == 1 && Count(es, IsApply) == 1
    ensures |es| >= 2 && es[0] == CheckboxActivated(how) && es[1] == ApplyClicked(sel)
    ensures notify ==> es[|es| - 1] == Notified
    ensures forall a :: CheckboxActivated(a) in es <==> a == how
    ensures ApplyClicked(sel) in es
    ensures Notified in es <==> notify
    ensures DriverCreated !in es
  {
    var es := [CheckboxActivated(how), ApplyClicked(sel)] + (if notify then [Notified] else []);
    AppliedCounts(how, sel, notify);
    es
  }

  /** The success trace holds one activation and one Apply click, with or without the notification. */
  lemma AppliedCounts(how: Activation, sel: string, notify: bool)
    ensures var es := [CheckboxActivated(how), ApplyClicked(sel)] + (if notify then [Notified] else []);
            Count(es, IsActivation) == 1 && Count(es, IsApply) == 1
  {
    var clicked := [CheckboxActivated(how), ApplyClicked(sel)];
    var notified: seq<Effect> := if notify then [Notified] else [];
    assert clicked[1..] == [ApplyClicked(sel)];
    assert clicked[1..][1..] == [];
    assert Count(notified, IsActivation) == 0 && Count(notified, IsApply) == 0;
    CountAppend(clicked, notified, IsActivation);
    CountAppend(clicked, notified, IsApply);
  }


  /**
   The steps once the checkbox shows the other state: activate it the way
   `via` says (None when both the label click and the script click raise),
   click `button`, the first Apply button found, and notify when asked to.
   */
  function Activate(notify: bool, via: Option<Activation>, button: Option<string>, applyClick: bool): (r: ToggleRun)
    ensures r.result == Success || r.result == Failure
    ensures r.result == Success <==> via.Some? && button.Some? && applyClick
    ensures Count(r.effects, IsActivation) <= 1
    ensures Count(r.effects, IsActivation) == 1 <==> via.Some?
    ensures via.Some? ==> CheckboxActivated(via.value) in r.effects
    ensures forall a :: CheckboxActivated(a) in r.effects ==> via == Some(a)
    ensures Count(r.effects, IsApply) == 1 <==> r.result == Success
    ensures Count(r.effects, IsApply) <= 1
    ensures r.result == Success ==> ApplyClicked(button.value) in r.effects
    ensures r.result == Success ==>
              |r.effects| >= 2 && r.effects[0] == CheckboxActivated(via.value) && r.effects[1] == ApplyClicked(button.value)
    ensures Notified in r.effects <==> r.result == Success && notify
    ensures DriverCreated !in r.effects
  {
    match via
    case None => ToggleRun(Failure, [])
    case Some(how) =>
      var activated := [CheckboxActivated(how)];
      assert Count(activated, IsActivation) == 1 && Count(activated, IsApply) == 0 by {
        assert activated[1..] == [];
      }
      match button
      case None => ToggleRun(Failure, activated)
      case Some(sel) =>
        if !applyClick then ToggleRun(Failure, activated)
        else ToggleRun(Success, Applied(how, sel, notify))
  }

  /** How the checkbox gets activated: the label click, else the script click, else not at all. */
  function ActivationOf(page: TogglePage): (a: Option<Activation>)
    ensures a == Some(ViaLabel) <==> page.labelClick
    ensures a == Some(ViaScript) <==> !page.labelClick && page.scriptClick
    ensures a.None? <==> !page.labelClick && !page.scriptClick
  {
    if page.labelClick then Some(ViaLabel) else if page.scriptClick then Some(ViaScript) else None
  }

  /**
   `_toggle_radio(enable)`: reach the checkbox; if it already shows the
   target state, report that and change nothing; otherwise activate it once,
   apply, and optionally notify. Any failure is `Failure`.
   */
  function Toggle(notify: bool, page: TogglePage, enable: bool): (r: ToggleRun)
    ensures r.result == AlreadyOn <==> ReachesCheckbox(page) && page.checkboxSelected && enable
    ensures r.result == AlreadyOff <==> ReachesCheckbox(page) && !page.checkboxSelected && !enable
    ensures r.result == Success <==>
              && ReachesCheckbox(page) && page.checkboxSelected != enable
              && (page.labelClick || page.scriptClick)
              && ApplyButton(page).Some? && page.applyClick
    ensures r.result != NotConnected
    ensures r.result == AlreadyOn || r.result == AlreadyOff ==> ReadOnly(r.effects)
    ensures !ReachesCheckbox(page) ==> r.result == Failure && ReadOnly(r.effects)
    ensures Count(r.effects, IsActivation) <= 1
    ensures r.result == Success ==>
              && Count(r.effects, IsActivation) == 1
              && Count(r.effects, IsApply) == 1
              && ApplyClicked(ApplyButton(page).value) in r.effects
    ensures r.result == Success ==> CheckboxActivated(if page.labelClick then ViaLabel else ViaScript) in r.effects
    ensures CheckboxActivated(ViaScript) in r.effects ==> !page.labelClick && page.scriptClick
    ensures CheckboxActivated(ViaLabel) in r.effects ==> page.labelClick
    ensures Count(r.effects, IsApply) > 0 ==> r.result == Success
    ensures Notified in r.effects <==> r.result == Success && notify
    ensures DriverCreated !in r.effects
  {
    if !ReachesCheckbox(page) then
      var es := ApproachFailure(page);
      NavigationFacts(es);
      ToggleRun(Failure, es)
    else
      var approach := ApproachCheckbox(page);
      NavigationFacts(approach);
      if page.checkboxSelected == enable then
        ToggleRun(if enable then AlreadyOn else AlreadyOff, approach)
      else
        var act := Activate(notify, ActivationOf(page), ApplyButton(page), page.applyClick);
        CountAppend(approach, act.effects, IsActivation);
        CountAppend(approach, act.effects, IsApply);
        NavigationPrefix(approach, act.effects);
        ToggleRun(act.result, approach + act.effects)
  }

  /** A missing Apply button fails the toggle after the checkbox was already activated. */
  lemma MissingApplyLeavesCheckboxActivated(notify: bool, page: TogglePage, enable: bool)
    requires ReachesCheckbox(page) && page.checkboxSelected != enable && page.labelClick
    requires ApplyButton(page).None?
    ensures Toggle(notify, page, enable).result == Failure
    ensures CheckboxActivated(ViaLabel) in Toggle(notify, page, enable).effects
  {
  }

  /**
   Toggling converges: once the checkbox shows the requested state (after a
   successful toggle, say), the same request finds it already there and
   changes nothing.
   */
  lemma ToggleConverges(notify: bool, page: TogglePage, enable: bool)
    requires ReachesCheckbox(page)
    ensures Toggle(notify, page.(checkboxSelected := enable), enable).result == (if enable then AlreadyOn else AlreadyOff)
    ensures ReadOnly(Toggle(notify, page.(checkboxSelected := enable), enable).effects)
  {
    assert ReachesCheckbox(page.(checkboxSelected := enable));
  }

  // ---------------------------------------------------------------------
  // The controller

  /** The controller's state: its configuration and whether it holds a driver. */
  datatype Controller = Controller(config: RouterConfig, hasDriver: bool)

  /** What one request observes of the browser, step by step. */
  datatype Browser = Browser(
    /** Creating the driver, when one is needed, does not raise. */
    driverStarts: bool,
    login: LoginPage,
    admin: AdminPage,
    status: StatusPage,
    toggle: TogglePage)

  /** What a public operation returns, the controller it leaves, and its trace. */
  datatype Outcome<R> = Outcome(result: R, controller: Controller, effects: seq<Effect>)

  /** How many drivers a trace creates. */
  function Creations(es: seq<Effect>): nat
  {
    Count(es, IsCreation)
  }

  /** A trace that creates no driver. */
  lemma NoCreations(es: seq<Effect>)
    requires DriverCreated !in es
    ensures Creations(es) == 0
  {
  }

  /** `_initialize_driver`: create a driver only when the controller has none. */
  function InitializeDriver(c: Controller, starts: bool): (r: Outcome<bool>)
    ensures r.result <==> c.hasDriver || starts
    ensures r.controller == c.(hasDriver := r.result)
    ensures DriverCreated in r.effects <==> !c.hasDriver && starts
    ensures Creations(r.effects) == (if !c.hasDriver && starts then 1 else 0)
    ensures ReadOnly(r.effects)
    ensures Notified !in r.effects
  {
    if c.hasDriver then Outcome(true, c, [])
    else if !starts then Outcome(false, c, [])
    else
      var es := [DriverCreated];
      assert es[1..] == [];
      Outcome(true, c.(hasDriver := true), es)
  }

  /** The exceptions a login could raise through its decorator. */
  datatype Fault = Fault

  /** The decorator on `_login_to_router`: three tries, two seconds, the default factor. */
  const LoginRetry := Utils.RetryParams(3, 2.0, 1.5)

  /**
   The decorated login. The body catches every exception it can meet, so the
   first call always returns and the decorator never sleeps or calls again.
   */
  function LoginWithRetry(routerUrl: Value, page: LoginPage): (run: Utils.Run<LoginRun, Fault>)
    ensures run.calls == 1 && run.sleeps == []
    ensures run.result == Utils.Returned(Login(routerUrl, page))
  {
    var outcomes: seq<Utils.Attempt<LoginRun, Fault>> := seq(3, _ => Utils.Returned(Login(routerUrl, page)));
    Utils.FirstCallReturns(LoginRetry, true, outcomes);
    Utils.Retry(LoginRetry, true, outcomes)
  }

  /** Driver, login and navigation all succeed. */
  predicate SessionOpens(c: Controller, browser: Browser)
  {
    (c.hasDriver || browser.driverStarts) && LoginSucceeds(browser.login) && NavigationSucceeds(browser.admin)
  }

  /**
   The steps both public operations share once the network check passes:
   initialise the driver, log in, navigate. A step that fails ends the
   sequence.
   */
  function OpenSession(c: Controller, browser: Browser): (r: Outcome<bool>)
    ensures r.result <==> SessionOpens(c, browser)
    ensures r.controller == c.(hasDriver := c.hasDriver || browser.driverStarts)
    ensures Creations(r.effects) == (if !c.hasDriver && browser.driverStarts then 1 else 0)
    ensures ReadOnly(r.effects)
    ensures Notified !in r.effects
  {
    var init := InitializeDriver(c, browser.driverStarts);
    if !init.result then init
    else
      var login := LoginWithRetry(c.config.routerUrl, browser.login).result.value;
      var es := init.effects + login.effects;
      NoCreations(login.effects);
      CountAppend(init.effects, login.effects, IsCreation);
      ReadOnlyAppend(init.effects, login.effects);
      if !login.ok then Outcome(false, init.controller, es)
      else
        var nav := NavigateToAdvancedSettings(c.config.adminUrl, browser.admin);
        NoCreations(nav.effects);
        CountAppend(es, nav.effects, IsCreation);
        ReadOnlyAppend(es, nav.effects);
        Outcome(nav.ok, init.controller, es + nav.effects)
  }

  /** `_ensure_network_connection`: the network checker built with the configured target. */
  predicate NetworkReady(c: Controller, probe: Network.NetworkProbe)
  {
    Network.IsConnectedToTargetNetwork(c.config.targetNetwork, probe)
  }

  /**
   `check_radio_status`: not on the router's network, it answers that and
   touches nothing; otherwise it opens a session and reads the status,
   and any failure on the way is an unexpected failure. It never changes a
   setting.
   */
  function CheckRadioStatus(c: Controller, probe: Network.NetworkProbe, browser: Browser): (r: Outcome<RadioStatus>)
    ensures r.result == NotConnectedToRouter <==> !NetworkReady(c, probe)
    ensures !NetworkReady(c, probe) ==> r.controller == c && r.effects == []
    ensures NetworkReady(c, probe) && SessionOpens(c, browser) ==> r.result == ReadStatus(browser.status).status
    ensures NetworkReady(c, probe) && !SessionOpens(c, browser) ==> r.result == UnexpectedFailure
    ensures r.controller.config == c.config
    ensures c.hasDriver ==> r.controller.hasDriver
    ensures Creations(r.effects) <= 1
    ensures Creations(r.effects) == 1 ==> !c.hasDriver && r.controller.hasDriver
    ensures ReadOnly(r.effects)
  {
    if !NetworkReady(c, probe) then Outcome(NotConnectedToRouter, c, [])
    else
      var session := OpenSession(c, browser);
      if !session.result then Outcome(UnexpectedFailure, session.controller, session.effects)
      else
        var read := ReadStatus(browser.status);
        NoCreations(read.effects);
        CountAppend(session.effects, read.effects, IsCreation);
        ReadOnlyAppend(session.effects, read.effects);
        Outcome(read.status, session.controller, session.effects + read.effects)
  }

  /**
   `turn_on_radio` (`enable`) and `turn_off_radio` (`!enable`): the same
   network check and session, then the toggle, which notifies when the
   configuration's notification flag is truthy.
   */
  function TurnRadio(c: Controller, probe: Network.NetworkProbe, browser: Browser, enable: bool): (r: Outcome<ActionResult>)
    ensures r.result == NotConnected <==> !NetworkReady(c, probe)
    ensures !NetworkReady(c, probe) ==> r.controller == c && r.effects == []
    ensures NetworkReady(c, probe) && SessionOpens(c, browser) ==>
              r.result == Toggle(c.config.enableNotifications.Truthy(), browser.toggle, enable).result
    ensures NetworkReady(c, probe) && !SessionOpens(c, browser) ==> r.result == Failure && ReadOnly(r.effects)
    ensures r.result != Success ==> Count(r.effects, IsApply) == 0
    ensures r.result == Success ==> Count(r.effects, IsApply) == 1 && Count(r.effects, IsActivation) == 1
    ensures r.result == AlreadyOn || r.result == AlreadyOff ==> ReadOnly(r.effects)
    ensures Notified in r.effects <==> r.result == Success && c.config.enableNotifications.Truthy()
    ensures r.controller.config == c.config
    ensures c.hasDriver ==> r.controller.hasDriver
    ensures Creations(r.effects) <= 1
    ensures Creations(r.effects) == 1 ==> !c.hasDriver && r.controller.hasDriver
  {
    if !NetworkReady(c, probe) then Outcome(NotConnected, c, [])
    else
      var session := OpenSession(c, browser);
      ReadOnlyCount(session.effects);
      if !session.result then Outcome(Failure, session.controller, session.effects)
      else
        var toggle := Toggle(c.config.enableNotifications.Truthy(), browser.toggle, enable);
        NoCreations(toggle.effects);
        CountAppend(session.effects, toggle.effects, IsCreation);
        CountAppend(session.effects, toggle.effects, IsApply);
        CountAppend(session.effects, toggle.effects, IsActivation);
        ReadOnlyAppend(session.effects, toggle.effects);
        Outcome(toggle.result, session.controller, session.effects + toggle.effects)
  }

  /** `turn_on_radio`: never reports the radio already off. */
  function TurnOnRadio(c: Controller, probe: Network.NetworkProbe, browser: Browser): (r: Outcome<ActionResult>)
    ensures r.result != AlreadyOff
    ensures r.result == AlreadyOn ==> ReadOnly(r.effects) && browser.toggle.checkboxSelected
  {
    TurnRadio(c, probe, browser, true)
  }

  /** `turn_off_radio`: never reports the radio already on. */
  function TurnOffRadio(c: Controller, probe: Network.NetworkProbe, browser: Browser): (r: Outcome<ActionResult>)
    ensures r.result != AlreadyOn
    ensures r.result == AlreadyOff ==> ReadOnly(r.effects) && !browser.toggle.checkboxSelected
  {
    TurnRadio(c, probe, browser, false)
  }

  // ---------------------------------------------------------------------
  // A controller serving several requests

  datatype Request = StatusRequest | OnRequest | OffRequest

  datatype Reply = StatusReply(status: RadioStatus) | ActionReply(action: ActionResult)

  /** What the world looks like when one request is served. */
  datatype Moment = Moment(request: Request, probe: Network.NetworkProbe, browser: Browser)

  function Handle(c: Controller, m: Moment): (r: Outcome<Reply>)
    ensures r.controller.config == c.config
    ensures c.hasDriver ==> r.controller.hasDriver
    ensures Creations(r.effects) <= 1
    ensures Creations(r.effects) == 1 ==> !c.hasDriver && r.controller.hasDriver
  {
    match m.request
    case StatusRequest =>
      var o := CheckRadioStatus(c, m.probe, m.browser);
      Outcome(StatusReply(o.result), o.controller, o.effects)
    case OnRequest =>
      var o := TurnRadio(c, m.probe, m.browser, true);
      Outcome(ActionReply(o.result), o.controller, o.effects)
    case OffRequest =>
      var o := TurnRadio(c, m.probe, m.browser, false);
      Outcome(ActionReply(o.result), o.controller, o.effects)
  }

  /**
   One controller serving requests in turn, as within one `with` block: the
   driver it creates is kept (nothing resets it), so across any number of
   requests at most one driver is created, and none when it starts with one.
   */
  function Serve(c: Controller, moments: seq<Moment>): (r: Outcome<seq<Reply>>)
    ensures |r.result| == |moments|
    ensures r.controller.config == c.config
    ensures c.hasDriver ==> r.controller.hasDriver
    ensures Creations(r.effects) <= 1
    ensures c.hasDriver ==> Creations(r.effects) == 0
    ensures Creations(r.effects) == 1 ==> r.controller.hasDriver
    decreases |moments|
  {
    if |moments| == 0 then Outcome([], c, [])
    else
      var first := Handle(c, moments[0]);
      var rest := Serve(first.controller, moments[1..]);
      CountAppend(first.effects, rest.effects, IsCreation);
      Outcome([first.result] + rest.result, rest.controller, first.effects + rest.effects)
  }
}

=== FILE: search.dfy ===
/**
 Ordered first-success search: the shape of every fallback loop in the
 controller (`for candidate in candidates: try ...; break / return` with
 `except: continue`), where a failing candidate just moves on to the next.
 */
module Search {
  import opened Wrappers

  /** The index of the first element of `xs` that `ok` accepts, if any. */
  function FirstIndex<T>(xs: seq<T>, ok: T -> bool): (r: Option<nat>)
    ensures r.Some? ==> r.value < |xs| && ok(xs[r.value])
    ensures r.Some? ==> forall j :: 0 <= j < r.value ==> !ok(xs[j])
    ensures r.None? <==> forall j :: 0 <= j < |xs| ==> !ok(xs[j])
  {
    if |xs| == 0 then None
    else if ok(xs[0]) then Some(0)
    else
      match FirstIndex(xs[1..], ok)
      case None => None
      case Some(i) => Some(i + 1)
  }

  /** The element at the first accepted index. */
  function FirstWhere<T>(xs: seq<T>, ok: T -> bool): (r: Option<T>)
    ensures r.Some? <==> exists j :: 0 <= j < |xs| && ok(xs[j])
    ensures r.Some? ==> exists j :: 0 <= j < |xs| && xs[j] == r.value && ok(xs[j])
                          && forall k :: 0 <= k < j ==> !ok(xs[k])
  {
    match FirstIndex(xs, ok)
    case None => None
    case Some(i) => Some(xs[i])
  }

  /** Candidates after the first success are never consulted. */
  lemma {:induction false} FirstIndexIgnoresLater<T>(xs: seq<T>, ys: seq<T>, ok: T -> bool)
    requires FirstIndex(xs, ok).Some?
    ensures FirstIndex(xs + ys, ok) == FirstIndex(xs, ok)
  {
    if !ok(xs[0]) {
      assert (xs + ys)[1..] == xs[1..] + ys;
      FirstIndexIgnoresLater(xs[1..], ys, ok);
    }
  }
}

=== FILE: text.dfy ===
/**
 Small string functions with the meaning of the Python `str` operations the
 controller and the network checker use: `in`, `startswith`, `lower`,
 `split` and `strip`. Strings are sequences of characters; no encoding is
 involved.
 */
module Text {

  /** `sub` occurs in `s` starting at index `i`. */
  predicate OccursAt(s: string, sub: string, i: int)
  {
    0 <= i && i + |sub| <= |s| && s[i..i + |sub|] == sub
  }

  /** Python's `sub in s`. */
  predicate Contains(s: string, sub: string)
  {
    exists i | 0 <= i <= |s| - |sub| :: OccursAt(s, sub, i)
  }

  /** Python's `s.startswith(prefix)`. */
  predicate StartsWith(s: string, prefix: string)
  {
    |prefix| <= |s| && s[..|prefix|] == prefix
  }

  /** A witness in the middle of a larger string. */
  lemma ContainsInfix(a: string, sub: string, b: string)
    ensures Contains(a + sub + b, sub)
  {
    var s := a + sub + b;
    assert s[|a|..|a| + |sub|] == sub;
    assert OccursAt(s, sub, |a|);
  }

  /** A string shorter than `sub` cannot contain it. */
  lemma ShortNotContains(s: string, sub: string)
    requires |s| < |sub|
    ensures !Contains(s, sub)
  {
  }

  /** Lower-case of one character, as Python's `str.lower` does for ASCII letters. */
  function LowerChar(c: char): (d: char)
    ensures 'A' <= c <= 'Z' ==> 'a' <= d <= 'z' && d as int - c as int == 32
    ensures !('A' <= c <= 'Z') ==> d == c
  {
    if 'A' <= c <= 'Z' then (c as int + 32) as char else c
  }

  /** Python's `s.lower()` restricted to ASCII letters. */
  function ToLower(s: string): (r: string)
    ensures |r| == |s|
    ensures forall i :: 0 <= i < |s| ==> r[i] == LowerChar(s[i])
    ensures forall i :: 0 <= i < |r| ==> !('A' <= r[i] <= 'Z')
  {
    seq(|s|, i requires 0 <= i < |s| => LowerChar(s[i]))
  }

  /** The characters Python's `str.strip()` removes (`str.isspace`). */
  predicate IsSpace(c: char)
  {
    || ('\t' <= c <= '\r') || ('\U{1C}' <= c <= ' ') || c == '\U{85}' || c == '\U{A0}'
    || c == '\U{1680}' || ('\U{2000}' <= c <= '\U{200A}') || c == '\U{2028}' || c == '\U{2029}'
    || c == '\U{202F}' || c == '\U{205F}' || c == '\U{3000}'
  }

  /** Every character of `s` at a position in `[lo, hi)` is whitespace. */
  predicate AllSpace(s: string, lo: int, hi: int)
  {
    forall k | lo <= k < hi && 0 <= k < |s| :: IsSpace(s[k])
  }

  /** End of the run of whitespace that starts at `i`. */
  function SpaceRunEnd(s: string, i: nat): (k: nat)
    requires i <= |s|
    ensures i <= k <= |s| && AllSpace(s, i, k)
    ensures k < |s| ==> !IsSpace(s[k])
    decreases |s| - i
  {
    if i < |s| && IsSpace(s[i]) then SpaceRunEnd(s, i + 1) else i
  }

  /** Start of the run of whitespace that ends at `j`, looking no further left than `lo`. */
  function SpaceRunStart(s: string, lo: nat, j: nat): (k: nat)
    requires lo <= j <= |s|
    ensures lo <= k <= j && AllSpace(s, k, j)
    ensures lo < k ==> !IsSpace(s[k - 1])
    decreases j
  {
    if lo < j && IsSpace(s[j - 1]) then SpaceRunStart(s, lo, j - 1) else j
  }

  /** Python's `s.strip()`: the slice of `s` between its leading and trailing whitespace. */
  function Strip(s: string): (r: string)
    ensures exists i, j | 0 <= i <= j <= |s| :: r == s[i..j] && AllSpace(s, 0, i) && AllSpace(s, j, |s|)
    ensures |r| > 0 ==> !IsSpace(r[0]) && !IsSpace(r[|r| - 1])
  {
    var i := SpaceRunEnd(s, 0);
    var j := SpaceRunStart(s, i, |s|);
    s[i..j]
  }

  /** Index of the first occurrence of `c` in `s`. */
  function IndexOf(s: string, c: char): (i: nat)
    requires c in s
    ensures i < |s| && s[i] == c && c !in s[..i]
  {
    if s[0] == c then 0 else
      assert s == [s[0]] + s[1..];
      var j := IndexOf(s[1..], c);
      assert s[..j + 1] == [s[0]] + s[1..][..j];
      j + 1
  }

  /** Python's `s.split(sep)` for a one-character separator. */
  function Split(s: string, sep: char): (parts: seq<string>)
    ensures |parts| >= 1
    ensures forall i :: 0 <= i < |parts| ==> sep !in parts[i]
    decreases |s|
  {
    if sep !in s then [s]
    else
      var i := IndexOf(s, sep);
      [s[..i]] + Split(s[i + 1..], sep)
  }

  /** Python's `sep.join(parts)`. */
  function Join(parts: seq<string>, sep: char): string
  {
    if |parts| == 0 then ""
    else if |parts| == 1 then parts[0]
    else parts[0] + [sep] + Join(parts[1..], sep)
  }

  /** Splitting loses nothing: joining the pieces gives the string back. */
  lemma {:induction false} JoinSplit(s: string, sep: char)
    ensures Join(Split(s, sep), sep) == s
    decreases |s|
  {
    if sep in s {
      var i := IndexOf(s, sep);
      var rest := Split(s[i + 1..], sep);
      JoinSplit(s[i + 1..], sep);
      var parts := [s[..i]] + rest;
      assert Split(s, sep) == parts;
      assert |parts| >= 2 && parts[0] == s[..i] && parts[1..] == rest;
      assert Join(parts, sep) == s[..i] + [sep] + Join(rest, sep);
      assert s == s[..i] + [sep] + s[i + 1..];
    }
  }

  /** The first piece of a split is the text before the first separator, or all of `s`. */
  lemma SplitHead(s: string, sep: char)
    ensures sep !in s ==> Split(s, sep)[0] == s
    ensures sep in s ==> Split(s, sep)[0] == s[..IndexOf(s, sep)]
  {
  }
}

=== FILE: trace.dfy ===
/**
 The effect trace: the observable steps the controller takes against the
 browser, in order. Properties of the controller are stated over the
 results it returns and the traces it leaves.
 */
module Trace {
  import opened Models

  /** Where the driver's focus moves to. */
  datatype Frame = IframeAt(index: nat) | NamedFrame(name: string)

  /** How the radio checkbox was activated. */
  datatype Activation = ViaLabel | ViaScript

  datatype Effect =
    | DriverCreated
    | Visited(url: Value)
    | SslAdvancedClicked
    | SslProceedClicked
    | LoginSubmitted
    | TakeoverClicked(selector: string)
    | AdvancedSetupClicked
    | FrameEntered(frame: Frame)
    | DefaultContent
    | WirelessSettingsClicked
    | CheckboxActivated(via: Activation)
    | ApplyClicked(selector: string)
    | Notified

  predicate IsCreation(e: Effect) { e.DriverCreated? }

  predicate IsActivation(e: Effect) { e.CheckboxActivated? }

  predicate IsApply(e: Effect) { e.ApplyClicked? }

  /** A step that changes the router's settings. */
  predicate IsMutation(e: Effect) { IsActivation(e) || IsApply(e) }

  /** How many effects of the trace `p` accepts. */
  function Count(es: seq<Effect>, p: Effect -> bool): (n: nat)
    ensures n <= |es|
    ensures n == 0 <==> forall i :: 0 <= i < |es| ==> !p(es[i])
  {
    if |es| == 0 then 0
    else
      assert forall i :: 1 <= i < |es| ==> es[i] == es[1..][i - 1];
      (if p(es[0]) then 1 else 0) + Count(es[1..], p)
  }

  /** Counting distributes over concatenation of traces. */
  lemma {:induction false} CountAppend(a: seq<Effect>, b: seq<Effect>, p: Effect -> bool)
    ensures Count(a + b, p) == Count(a, p) + Count(b, p)
  {
    if |a| == 0 {
      assert a + b == b;
    } else {
      assert (a + b)[0] == a[0];
      assert (a + b)[1..] == a[1..] + b;
      CountAppend(a[1..], b, p);
    }
  }

  /** A trace with no mutation step. */
  predicate ReadOnly(es: seq<Effect>)
  {
    forall i :: 0 <= i < |es| ==> !IsMutation(es[i])
  }

  /** A trace is read-only exactly when both of its parts are. */
  lemma ReadOnlyAppend(a: seq<Effect>, b: seq<Effect>)
    ensures ReadOnly(a + b) <==> ReadOnly(a) && ReadOnly(b)
  {
    if ReadOnly(a + b) {
      forall i | 0 <= i < |a|
        ensures !IsMutation(a[i])
      {
        assert (a + b)[i] == a[i];
      }
    }
    if ReadOnly(a) && ReadOnly(b) {
      forall i | 0 <= i < |a + b|
        ensures !IsMutation((a + b)[i])
      {
        if i >= |a| {
          assert (a + b)[i] == b[i - |a|];
        }
      }
    }
    if ReadOnly(a + b) {
      forall i | 0 <= i < |b|
        ensures !IsMutation(b[i])
      {
        assert (a + b)[|a| + i] == b[i];
      }
    }
  }

  /** A read-only trace holds no activation and no Apply click. */
  lemma ReadOnlyCount(es: seq<Effect>)
    requires ReadOnly(es)
    ensures Count(es, IsActivation) == 0 && Count(es, IsApply) == 0
  {
  }

  /** A step that only moves the focus or opens a sub-page. */
  predicate IsNavigation(e: Effect)
  {
    e.FrameEntered? || e.DefaultContent? || e.WirelessSettingsClicked?
  }

  /** A trace of navigation steps only. */
  predicate Navigation(es: seq<Effect>)
  {
    forall i :: 0 <= i < |es| ==> IsNavigation(es[i])
  }

  lemma NavigationAppend(a: seq<Effect>, b: seq<Effect>)
    requires Navigation(a) && Navigation(b)
    ensures Navigation(a + b)
  {
    forall i | 0 <= i < |a + b|
      ensures IsNavigation((a + b)[i])
    {
      if i >= |a| {
        assert (a + b)[i] == b[i - |a|];
      }
    }
  }

  /** A navigation prefix adds no step other than navigation to a trace. */
  lemma NavigationPrefix(nav: seq<Effect>, es: seq<Effect>)
    requires Navigation(nav)
    ensures forall e :: !IsNavigation(e) ==> (e in nav + es <==> e in es)
  {
  }

  /** Navigation changes no setting, notifies nobody and creates no driver. */
  lemma NavigationFacts(es: seq<Effect>)
    requires Navigation(es)
    ensures ReadOnly(es)
    ensures Notified !in es && DriverCreated !in es
    ensures Count(es, IsActivation) == 0 && Count(es, IsApply) == 0
  {
  }
}

=== FILE: utils.dfy ===
/**
 The `retry` decorator. The decorated operation is abstracted to the
 sequence of outcomes its successive calls would produce; a run of the
 wrapper records the outcome it hands back (a return value or a propagated
 exception), how many calls it made, and the length of every sleep, in
 order. Sleep lengths are reals; floating-point rounding is not modelled.
 */
module Utils {

  /** What one call of the operation does: return a value or raise an exception. */
  datatype Attempt<+T, +E> = Returned(value: T) | Raised(error: E)

  /** The parameters of `retry(tries, delay, backoff)`. */
  datatype RetryParams = RetryParams(tries: int, delay: real, backoff: real)

  /** `retry()` with no arguments: three tries, two seconds, factor 1.5. */
  const DefaultParams := RetryParams(3, 2.0, 1.5)

  /**
   What the wrapper raises: the operation's own exception, re-raised after
   the last try, or a failure of its handler between tries. The handler
   reads `args[0]`, which raises IndexError when the operation was called
   with no positional argument, and `time.sleep` raises ValueError for a
   negative length.
   */
  datatype Raise<+E> = Propagated(error: E) | NoPositionalArgument | NegativeSleep(length: real)

  /** One call of the wrapped function. */
  datatype Run<+T, +E> = Run(result: Attempt<T, Raise<E>>, calls: nat, sleeps: seq<real>)

  /** An outcome of the operation passed through unchanged, with nothing caught. */
  function Unguarded<T, E>(a: Attempt<T, E>): (r: Attempt<T, Raise<E>>)
    ensures r.Returned? <==> a.Returned?
    ensures r.Returned? ==> r.value == a.value
    ensures r.Raised? ==> r.error == Propagated(a.error)
  {
    match a
    case Returned(v) => Returned(v)
    case Raised(e) => Raised(Propagated(e))
  }

  /**
   The handler between tries cannot fail: the operation has a positional
   argument and no sleep length is negative.
   */
  predicate HandlerSafe(p: RetryParams, hasArgument: bool)
  {
    hasArgument && p.delay >= 0.0 && p.backoff >= 0.0
  }

  /** `b` to the power `n`. */
  function Pow(b: real, n: nat): real
  {
    if n == 0 then 1.0 else b * Pow(b, n - 1)
  }

  /** The delay before sleep number `n + 1`: `d`, multiplied by `b` once per earlier sleep. */
  function Delay(d: real, b: real, n: nat): real
  {
    if n == 0 then d else Delay(d, b, n - 1) * b
  }

  /** The closed form: sleep number `n + 1` lasts `d * b^n`. */
  lemma {:induction false} DelayClosedForm(d: real, b: real, n: nat)
    ensures Delay(d, b, n) == d * Pow(b, n)
  {
    if n > 0 {
      DelayClosedForm(d, b, n - 1);
      var x := Pow(b, n - 1);
      assert (d * x) * b == d * (b * x);
    }
  }

  /** The most calls a run can make: `tries`, or the one unguarded call when `tries <= 0`. */
  function MaxCalls(tries: int): nat
  {
    if tries <= 0 then 1 else tries
  }

  /** Multiplying by a non-negative factor keeps every delay non-negative. */
  lemma {:induction false} DelayNonNegative(d: real, b: real, n: nat)
    ensures d >= 0.0 && b >= 0.0 ==> Delay(d, b, n) >= 0.0
  {
    if n > 0 {
      DelayNonNegative(d, b, n - 1);
      var x := Delay(d, b, n - 1);
      assert x >= 0.0 && b >= 0.0 ==> x * b >= 0.0;
    }
  }

  /**
   The loop from attempt number `attempt` on. `current_delay` has been
   multiplied by `backoff` once per earlier failure, so it is
   `Delay(delay, backoff, attempt - 1)`. `hasArgument` says whether the
   operation was called with a positional argument.
   */
  function RetryFrom<T, E>(tries: int, attempt: nat, delay: real, backoff: real, hasArgument: bool,
                           outcomes: seq<Attempt<T, E>>): (run: Run<T, E>)
    requires 1 <= attempt <= tries <= |outcomes|
    ensures attempt <= run.calls <= tries
    ensures forall i :: attempt - 1 <= i < run.calls - 1 ==> outcomes[i].Raised?
    ensures run.result.Returned? <==> outcomes[run.calls - 1].Returned?
    ensures run.result.Returned? ==> run.result.value == outcomes[run.calls - 1].value
    ensures run.result.Raised? && run.result.error.Propagated? ==>
              run.calls == tries && run.result.error.error == outcomes[run.calls - 1].error
    ensures run.result.Raised? && !run.result.error.Propagated? ==> run.calls < tries
    ensures run.result == Raised(NoPositionalArgument) ==> !hasArgument
    ensures !hasArgument ==> run.calls == attempt
    ensures run.result.Raised? && run.result.error.NegativeSleep? ==>
              hasArgument && run.result.error.length < 0.0
              && run.result.error.length == Delay(delay, backoff, run.calls - 1)
    ensures hasArgument && delay >= 0.0 && backoff >= 0.0 ==>
              !(run.result.Raised? && !run.result.error.Propagated?)
    ensures |run.sleeps| == run.calls - attempt
    ensures forall i :: 0 <= i < |run.sleeps| ==> run.sleeps[i] == Delay(delay, backoff, attempt - 1 + i)
    ensures forall i :: 0 <= i < |run.sleeps| ==> run.sleeps[i] >= 0.0
    decreases tries - attempt
  {
    var currentDelay := Delay(delay, backoff, attempt - 1);
    match outcomes[attempt - 1]
    case Returned(v) => Run(Returned(v), attempt, [])
    case Raised(e) =>
      if attempt == tries then Run(Raised(Propagated(e)), attempt, [])
      else if !hasArgument then Run(Raised(NoPositionalArgument), attempt, [])
      else if currentDelay < 0.0 then
        DelayNonNegative(delay, backoff, attempt - 1);
        Run(Raised(NegativeSleep(currentDelay)), attempt, [])
      else
        var rest := RetryFrom(tries, attempt + 1, delay, backoff, hasArgument, outcomes);
        var sleeps := [currentDelay] + rest.sleeps;
        assert forall i :: 1 <= i < |sleeps| ==> sleeps[i] == rest.sleeps[i - 1];
        Run(rest.result, rest.calls, sleeps)
  }

  /**
   The wrapper: with `tries >= 1` the guarded loop; otherwise the loop body
   never runs and the operation is called once with nothing caught.
   `outcomes[i]` is what call number `i + 1` would do.
   */
  function Retry<T, E>(p: RetryParams, hasArgument: bool, outcomes: seq<Attempt<T, E>>): (run: Run<T, E>)
    requires |outcomes| >= MaxCalls(p.tries)
    ensures 1 <= run.calls <= MaxCalls(p.tries)
    ensures forall i :: 0 <= i < run.calls - 1 ==> outcomes[i].Raised?
    ensures run.result.Returned? <==> outcomes[run.calls - 1].Returned?
    ensures run.result.Returned? ==> run.result.value == outcomes[run.calls - 1].value
    ensures run.result.Raised? && run.result.error.Propagated? ==>
              run.calls == MaxCalls(p.tries) && run.result.error.error == outcomes[run.calls - 1].error
    ensures run.result.Raised? && !run.result.error.Propagated? ==> run.calls < p.tries
    ensures run.result == Raised(NoPositionalArgument) ==> !hasArgument
    ensures !hasArgument ==> run.calls == 1
    ensures run.result.Raised? && run.result.error.NegativeSleep? ==>
              run.result.error.length < 0.0 && run.result.error.length == Delay(p.delay, p.backoff, run.calls - 1)
    ensures HandlerSafe(p, hasArgument) ==> !(run.result.Raised? && !run.result.error.Propagated?)
    ensures p.tries <= 0 ==> run.calls == 1 && run.sleeps == []
    ensures |run.sleeps| == run.calls - 1
    ensures forall i :: 0 <= i < |run.sleeps| ==> run.sleeps[i] == Delay(p.delay, p.backoff, i)
    ensures forall i :: 0 <= i < |run.sleeps| ==> run.sleeps[i] >= 0.0
  {
    if p.tries <= 0 then Run(Unguarded(outcomes[0]), 1, [])
    else RetryFrom(p.tries, 1, p.delay, p.backoff, hasArgument, outcomes)
  }

  /** Index of the first returning call among the first `n`, if there is one. */
  function FirstReturn<T, E>(outcomes: seq<Attempt<T, E>>, n: nat): (k: nat)
    requires n <= |outcomes|
    ensures k <= n
    ensures forall i :: 0 <= i < k ==> outcomes[i].Raised?
    ensures k < n ==> outcomes[k].Returned?
  {
    if n == 0 then 0
    else
      var k := FirstReturn(outcomes, n - 1);
      if k < n - 1 then k else if outcomes[n - 1].Returned? then n - 1 else n
  }

  /**
   Closed form of a guarded run whose handler cannot fail: with `k`
   failures before the first return among the `tries` calls, the run
   returns that value after `k` sleeps; when all `tries` calls raise, the
   last exception propagates after `tries - 1` sleeps.
   */
  lemma RetryClosedForm<T, E>(p: RetryParams, hasArgument: bool, outcomes: seq<Attempt<T, E>>)
    requires 1 <= p.tries <= |outcomes|
    requires HandlerSafe(p, hasArgument)
    ensures var k := FirstReturn(outcomes, p.tries);
            var run := Retry(p, hasArgument, outcomes);
            && (k < p.tries ==> run.result == Returned(outcomes[k].value) && run.calls == k + 1 && |run.sleeps| == k)
            && (k == p.tries ==> run.result == Raised(Propagated(outcomes[p.tries - 1].error))
                                 && run.calls == p.tries && |run.sleeps| == p.tries - 1)
  {
    var k := FirstReturn(outcomes, p.tries);
    var run := Retry(p, hasArgument, outcomes);
    if k < p.tries {
      assert outcomes[k].Returned?;
      assert run.calls - 1 <= k;
      assert run.calls - 1 >= k;
    } else {
      assert outcomes[run.calls - 1].Raised?;
    }
  }

  /** Sleep number `i + 1` lasts `delay * backoff^i`. */
  lemma SleepsGeometric<T, E>(p: RetryParams, hasArgument: bool, outcomes: seq<Attempt<T, E>>, i: nat)
    requires |outcomes| >= MaxCalls(p.tries)
    requires i < |Retry(p, hasArgument, outcomes).sleeps|
    ensures Retry(p, hasArgument, outcomes).sleeps[i] == p.delay * Pow(p.backoff, i)
  {
    DelayClosedForm(p.delay, p.backoff, i);
  }

  /** With the defaults, three failing calls sleep 2 then 3 seconds and re-raise the third error. */
  lemma DefaultParamsAllFail<T, E>(outcomes: seq<Attempt<T, E>>, e1: E, e2: E, e3: E)
    requires outcomes == [Raised(e1), Raised(e2), Raised(e3)]
    ensures var run := Retry(DefaultParams, true, outcomes);
            run.result == Raised(Propagated(e3)) && run.calls == 3 && run.sleeps == [2.0, 3.0]
  {
    var run := Retry(DefaultParams, true, outcomes);
    assert run.sleeps[1] == Delay(2.0, 1.5, 1) == 3.0;
  }

  /**
   A first call that raises, with more tries left, makes the handler fail
   at once: IndexError without a positional argument, else ValueError for
   a negative delay. The exception raised is the handler's, not the
   operation's.
   */
  lemma HandlerFailsAfterFirstError<T, E>(p: RetryParams, hasArgument: bool, outcomes: seq<Attempt<T, E>>)
    requires 2 <= p.tries <= |outcomes|
    requires outcomes[0].Raised?
    requires !hasArgument || p.delay < 0.0
    ensures var run := Retry(p, hasArgument, outcomes);
            && run.calls == 1 && run.sleeps == []
            && run.result == (if hasArgument then Raised(NegativeSleep(p.delay)) else Raised(NoPositionalArgument))
  {
  }

  /** A negative factor turns the second sleep negative: after two failures the handler raises ValueError. */
  lemma NegativeBackoffFailsSecondSleep<T, E>(outcomes: seq<Attempt<T, E>>, e1: E, e2: E, e3: E)
    requires outcomes == [Raised(e1), Raised(e2), Raised(e3)]
    ensures var run := Retry(RetryParams(3, 2.0, -1.0), true, outcomes);
            run.result == Raised(NegativeSleep(-2.0)) && run.calls == 2 && run.sleeps == [2.0]
  {
    var run := Retry(RetryParams(3, 2.0, -1.0), true, outcomes);
    assert |run.sleeps| == 1 && run.sleeps[0] == 2.0;
  }

  /** An operation whose first call returns is called exactly once and never slept on. */
  lemma FirstCallReturns<T, E>(p: RetryParams, hasArgument: bool, outcomes: seq<Attempt<T, E>>)
    requires |outcomes| >= MaxCalls(p.tries)
    requires outcomes[0].Returned?
    ensures Retry(p, hasArgument, outcomes) == Run(Returned(outcomes[0].value), 1, [])
  {
  }
}

=== FILE: wrappers.dfy ===
/** The optional value used for lookups that may find nothing. */
module Wrappers {

  datatype Option<+T> = None | Some(value: T)
}
